=== FILE: README.md ===
# gate.io streaming core, modelled in Dafny

This project models the transport-independent decisions of
`AbstractNettyStreamingService`, the WebSocket streaming service of the gate.io
client. One socket carries many logical channels. Each subscription is kept in a
registry keyed by its channel id. When the host closes the socket, the service
reconnects while a shared retry counter stays within 30 closes per window, and then
replays the registered subscriptions. Sign and ping channels are skipped, and an
unchecked exception ends the replay early.

The model is a functional state machine. A `State` holds:
- the registry (`map<string, Subscription>`);
- the socket as `open`/`writable` flags;
- the manual-disconnect flag;
- the shared retry counter as `(count, ttl)`, where a ttl of -1 means no expiry;
- the number of `getNonce` calls made so far.

Every operation is a pure function returning a `Step`, which holds:
- the next state;
- the effects, in the order the service starts them: text frames, close frames, completions, stream errors and reconnect scheduling. An effect that runs in a Netty listener is placed where its listener is registered;
- the exception, if any, that escapes the operation.

The exchange-specific collaborators are parameters, gathered in an `Exchange` record of total functions:
- the id derivation;
- the subscribe and unsubscribe builders, which may fail with an `IOException`;
- the nonce source: `nonce(k)` is the value of the k-th `getNonce` call, counted over the service's whole life by the state's `noncesDrawn`;
- the signature, which may throw;
- the ORDER, SERVER_SIGN and SERVER_PING marker strings.

Java `null` is `None`.

Modules, one per file:
- `Wrappers` (wrappers.dfy): `Option`, `Result`.
- `Text` (text.dfy): `String.contains`, ASCII `equalsIgnoreCase`, `Long.toString`.
- `Endpoints` (endpoint.dfy): scheme, host, port and TLS resolution in `connect`.
- `Streaming` (state.dfy): the state, the effects, the collaborators.
- `Connection` (connection.dfy): `sendMessage`, `connect`, `disconnect`.
- `Registry` (registry.dfy): `subscribeChannel` and its dispose hook.
- `Resubscription` (resubscribe.dfy): `resubscribeChannels`.
- `Reconnection` (reconnect.dfy): `channelInactive` and the reconnect task it schedules.
- `Routing` (routing.dfy): `getChannel`, `handleChannelMessage`, `handleChannelError`.

The model follows the code as written, including these surprises:
- `disconnect` clears the registry once the close frame is written. Its completable completes only when the socket was open. Otherwise it never completes.
- `subscribeChannel` does not return after signalling `NotConnectedException`. The entry is registered anyway, and its frame is dropped by `sendMessage`.
- Authentication is sent once per ORDER entry, even when several entries share one credential pair.
- Only `IOException` is caught around each replayed entry. A missing or null credential argument, or a throwing signature, escapes `resubscribeChannels` and ends the replay. A builder `IOException` costs only its own message.
- An inbound message or error for an unregistered channel raises a `NullPointerException`. It is not silently dropped.

## Model

| member | source | states |
|---|---|---|
| Endpoints.Resolve | troy-trade-ws-gateio/src/main/java/com/troy/streamingexchange/gateio/service/netty/AbstractNettyStreamingService.java:93-117 | A null host fails with the host error, and the host test comes first. Success means a host and a ws or wss scheme. Otherwise the scheme error, which carries no payload, like the source's fixed message. The host is copied. TLS iff wss. An explicit port is kept; with none, 443 for wss and 80 otherwise. |
| Endpoints.WsSpellings | troy-trade-ws-gateio/src/main/java/com/troy/streamingexchange/gateio/service/netty/AbstractNettyStreamingService.java:102-113 | The case-insensitive "ws" test accepts exactly "ws", "wS", "Ws" and "WS". |
| Endpoints.MissingSchemeIsWs | troy-trade-ws-gateio/src/main/java/com/troy/streamingexchange/gateio/service/netty/AbstractNettyStreamingService.java:93 | A URI without a scheme resolves exactly as one saying "ws". |
| Endpoints.ResolveIgnoresSchemeCase | troy-trade-ws-gateio/src/main/java/com/troy/streamingexchange/gateio/service/netty/AbstractNettyStreamingService.java:102-117 | Two schemes equal ignoring case both succeed, with the same endpoint, or both fail. |
| Endpoints.ResolvedPortAndTls | troy-trade-ws-gateio/src/main/java/com/troy/streamingexchange/gateio/service/netty/AbstractNettyStreamingService.java:100-117 | On success, TLS iff the scheme is not ws. The port is the URI's or 80/443, and never -1. |
| Connection.SendMessage | troy-trade-ws-gateio/src/main/java/com/troy/streamingexchange/gateio/service/netty/AbstractNettyStreamingService.java:221-238 | At most one effect. Exactly one text frame, carrying the message, iff the link is open and writable and the message is non-null. Nothing is ever raised. |
| Connection.SendAllFrames | troy-trade-ws-gateio/src/main/java/com/troy/streamingexchange/gateio/service/netty/AbstractNettyStreamingService.java:221-238 | Repeated sends over a usable link put exactly the non-null messages on the wire, in order. Over any other link they send nothing. |
| Connection.Connect | troy-trade-ws-gateio/src/main/java/com/troy/streamingexchange/gateio/service/netty/AbstractNettyStreamingService.java:89-177 | A resolution failure leaves the state unchanged and only reports the error. A dial happens iff resolution succeeds, and it goes to exactly the resolved host, port and TLS choice. Completion happens iff the transport is established, and the link is then open with the transport's writability. The registry, flag, retry counter and nonce counter are untouched, and no frame is sent. |
| Connection.Disconnect | troy-trade-ws-gateio/src/main/java/com/troy/streamingexchange/gateio/service/netty/AbstractNettyStreamingService.java:180-202 | The manual flag is set and the link ends closed. An open link gets a close frame first and the registry cleared. Completion iff the link was open. No text frame and no reconnect. |
| Registry.Subscribe | troy-trade-ws-gateio/src/main/java/com/troy/streamingexchange/gateio/service/netty/AbstractNettyStreamingService.java:240-256 | NotConnected is signalled iff the link is not open. A known id changes nothing and sends nothing. A new id adds exactly that entry. The one frame t goes out iff the id is new, the link usable and the build yields t. A build IOException for a new id is signalled to the stream. No other kind of effect occurs. |
| Registry.Dispose | troy-trade-ws-gateio/src/main/java/com/troy/streamingexchange/gateio/service/netty/AbstractNettyStreamingService.java:257-261 | An unknown id is a no-op. A registered id with a built message is removed, and every other entry is kept. A build failure escapes and keeps the entry. The one frame t goes out iff the id was registered, the link usable and the unsubscribe build yields t. |
| Registry.DefaultIdIsChannelName | troy-trade-ws-gateio/src/main/java/com/troy/streamingexchange/gateio/service/netty/AbstractNettyStreamingService.java:210-212 | With the base id derivation, a new subscription is stored under its channel name. |
| Registry.SubscribeIdempotent | troy-trade-ws-gateio/src/main/java/com/troy/streamingexchange/gateio/service/netty/AbstractNettyStreamingService.java:248-256 | A second subscribe to the same channel leaves the state alone and sends no frame, whatever the link. |
| Registry.AtMostOneSubscribeFrame | troy-trade-ws-gateio/src/main/java/com/troy/streamingexchange/gateio/service/netty/AbstractNettyStreamingService.java:248-256 | Any number of subscribes to one channel send at most one frame and leave the id registered. |
| Registry.SilentOnceRegistered | troy-trade-ws-gateio/src/main/java/com/troy/streamingexchange/gateio/service/netty/AbstractNettyStreamingService.java:248 | Once the id is registered, further subscribes change nothing and send nothing. |
| Registry.SubscribeThenDispose | troy-trade-ws-gateio/src/main/java/com/troy/streamingexchange/gateio/service/netty/AbstractNettyStreamingService.java:240-261 | Subscribe to a new channel, then dispose of it: the original state comes back, and exactly the subscribe and unsubscribe frames are sent. |
| Registry.WellKeyedPreserved | troy-trade-ws-gateio/src/main/java/com/troy/streamingexchange/gateio/service/netty/AbstractNettyStreamingService.java:241-260 | Every entry stays stored under the id its own name and arguments derive. |
| Registry.SubscribeConnected | troy-trade-ws-gateio/src/main/java/com/troy/streamingexchange/gateio/service/netty/AbstractNettyStreamingService.java:244-256 | With the missing return added: NotConnected is signalled iff the link is not open, and a closed link leaves the state untouched. On an open link the registry gains exactly `Subscription(name, args)` under a new id and is otherwise unchanged. The one frame t goes out iff the id is new, the link usable and the build yields t. A build IOException is signalled only on an open link for a new id. No other kind of effect occurs. |
| Registry.EarlySubscribeSuppressesLaterFrame | troy-trade-ws-gateio/src/main/java/com/troy/streamingexchange/gateio/service/netty/AbstractNettyStreamingService.java:244-256 | As written, subscribing while disconnected registers the channel, so a repeat subscribe after connecting sends no frame. |
| Registry.GuardedSubscribeSendsAfterConnect | troy-trade-ws-gateio/src/main/java/com/troy/streamingexchange/gateio/service/netty/AbstractNettyStreamingService.java:244-256 | With the return, the same sequence sends exactly the subscribe frame once the link is usable. |
| Resubscription.Credentials | troy-trade-ws-gateio/src/main/java/com/troy/streamingexchange/gateio/service/netty/AbstractNettyStreamingService.java:274-275 | Success iff there are at least two arguments and neither of the first two is null, giving their texts. Otherwise a NullPointerException when one of them is null, else an IndexOutOfBoundsException. |
| Resubscription.ReplayDrawsNonces | troy-trade-ws-gateio/src/main/java/com/troy/streamingexchange/gateio/service/netty/AbstractNettyStreamingService.java:276 | A replay draws at least as many nonces as it sends authentications. |
| Resubscription.AuthSends | troy-trade-ws-gateio/src/main/java/com/troy/streamingexchange/gateio/service/netty/AbstractNettyStreamingService.java:276-288 | It fails iff the signature throws. Otherwise it makes at most one send: the auth subscribe on SERVER_SIGN-apiKey with {apiKey, signature, nonce}, or none when that build fails. |
| Resubscription.ReplayEntry | troy-trade-ws-gateio/src/main/java/com/troy/streamingexchange/gateio/service/netty/AbstractNettyStreamingService.java:268-296 | Every send of an iteration is for its own entry. An escaping exception comes only from an ORDER entry, which has then sent nothing. |
| Resubscription.EntryFacts | troy-trade-ws-gateio/src/main/java/com/troy/streamingexchange/gateio/service/netty/AbstractNettyStreamingService.java:268-296 | Per iteration: the exception cases are exactly bad credentials or a throwing signature; there are at most two sends, auth first and the replayed subscribe last; the counts are as expected; and every send is built from the entry. |
| Resubscription.Loop | troy-trade-ws-gateio/src/main/java/com/troy/streamingexchange/gateio/service/netty/AbstractNettyStreamingService.java:267-297 | The loop sends only on behalf of the ids it iterates over. |
| Resubscription.ReplayCounts | troy-trade-ws-gateio/src/main/java/com/troy/streamingexchange/gateio/service/netty/AbstractNettyStreamingService.java:266-298 | After a completed replay, each entry gets exactly one replayed subscribe unless it is a sign or ping channel, or its build fails, whatever the other entries did. Each entry is authenticated at most once. With builders that never fail, every ORDER entry is authenticated exactly once, even when several share one credential pair. |
| Resubscription.ReplayAuthFirst | troy-trade-ws-gateio/src/main/java/com/troy/streamingexchange/gateio/service/netty/AbstractNettyStreamingService.java:272-293 | An entry's auth send immediately precedes its replayed subscribe. |
| Resubscription.ReplayAbortStopsRest | troy-trade-ws-gateio/src/main/java/com/troy/streamingexchange/gateio/service/netty/AbstractNettyStreamingService.java:267-297 | An escaping exception comes from an ORDER entry, and nothing is sent for it or for any entry after it. |
| Resubscription.ReplayCompletes | troy-trade-ws-gateio/src/main/java/com/troy/streamingexchange/gateio/service/netty/AbstractNettyStreamingService.java:268-296 | If every ORDER entry has two non-null credentials and signing never throws, the replay runs to the end. Builder failures alone never stop it. |
| Resubscription.ReplayFaithful | troy-trade-ws-gateio/src/main/java/com/troy/streamingexchange/gateio/service/netty/AbstractNettyStreamingService.java:269-293 | Every replayed subscribe is built from its entry's stored name and args. Every auth send belongs to an ORDER entry and is built from that entry's credentials, a nonce and the signature over it. |
| Resubscription.ResubscribeChannels | troy-trade-ws-gateio/src/main/java/com/troy/streamingexchange/gateio/service/netty/AbstractNettyStreamingService.java:266-298 | The state is unchanged apart from the nonce counter, which moves past at least one nonce per authentication sent. Only text frames are sent, and none over an unusable link. Over a usable link the frames are exactly the non-null messages of the replay's sends, in order. An escaping exception implies an ORDER entry exists. |
| Resubscription.ResubscribeReplaysEveryEntry | troy-trade-ws-gateio/src/main/java/com/troy/streamingexchange/gateio/service/netty/AbstractNettyStreamingService.java:290-293 | Over a usable link, a completed replay puts the stored subscribe message of every replayed entry on the wire. |
| Resubscription.ResubscribeAuthOnlyForOrders | troy-trade-ws-gateio/src/main/java/com/troy/streamingexchange/gateio/service/netty/AbstractNettyStreamingService.java:272-282 | Each auth send is for an ORDER entry, built from that entry's own credentials, and is the only auth send for that entry. |
| Reconnection.ChannelInactive | troy-trade-ws-gateio/src/main/java/com/troy/streamingexchange/gateio/service/netty/AbstractNettyStreamingService.java:361-404 | After a manual disconnect: the flag is cleared and there are no effects. Otherwise: the counter rises by exactly one. Forward and schedule happen iff the earlier count is below 30. Within the ceiling the ttl becomes 300 s if it was -1 and is otherwise kept. Past the ceiling it becomes exactly 30 s if it was -1 or above 30, and is otherwise kept. The context is always closed, last. The counter-key shape is preserved. |
| Reconnection.UnexpectedCloseEffects | troy-trade-ws-gateio/src/main/java/com/troy/streamingexchange/gateio/service/netty/AbstractNettyStreamingService.java:371-401 | Forward and schedule happen iff the new count is at most 30. The context is closed in every case, last. No frame is sent. |
| Reconnection.RetryCeilingHolds | troy-trade-ws-gateio/src/main/java/com/troy/streamingexchange/gateio/service/netty/AbstractNettyStreamingService.java:367-392 | n unexpected closes in one window schedule exactly min(n, 30 - count) reconnects, so the 31st close schedules none. Every close closes its context, and the counter rises by n. |
| Reconnection.ManualDisconnectSuppressesReconnect | troy-trade-ws-gateio/src/main/java/com/troy/streamingexchange/gateio/service/netty/AbstractNettyStreamingService.java:361-363 | The close after `disconnect` has no effect and leaves the counter alone. The flag is consumed, so the next unexpected close is counted again. |
| Reconnection.ReconnectTask | troy-trade-ws-gateio/src/main/java/com/troy/streamingexchange/gateio/service/netty/AbstractNettyStreamingService.java:384-391 | Connect, then replay only on completion. The registry and counter are kept. Frames are sent only after resolution and a writable transport. An exception comes only from a replay after a successful dial. |
| Reconnection.BadEndpointDialsNothing | troy-trade-ws-gateio/src/main/java/com/troy/streamingexchange/gateio/service/netty/AbstractNettyStreamingService.java:95-115 | A reconnect whose endpoint does not resolve dials nothing, sends nothing and only reports the error. |
| Reconnection.ReconnectRestoresSubscriptions | troy-trade-ws-gateio/src/main/java/com/troy/streamingexchange/gateio/service/netty/AbstractNettyStreamingService.java:384-391 | A reconnect to a writable socket with a completed replay resends every replayed entry's subscribe message. |
| Routing.GetChannel | troy-trade-ws-gateio/src/main/java/com/troy/streamingexchange/gateio/service/netty/AbstractNettyStreamingService.java:300-309 | A parse failure becomes the empty channel name. Otherwise the parsed name is used, null included. |
| Routing.HandleChannelMessage | troy-trade-ws-gateio/src/main/java/com/troy/streamingexchange/gateio/service/netty/AbstractNettyStreamingService.java:322-330 | Delivered to the channel iff it is non-null and registered. Otherwise a NullPointerException. |
| Routing.UnparseableMessageRaises | troy-trade-ws-gateio/src/main/java/com/troy/streamingexchange/gateio/service/netty/AbstractNettyStreamingService.java:300-314 | An unparseable message goes to channel "": delivered if "" is registered, otherwise it raises. |
| Routing.UnregisteredMessageRaises | troy-trade-ws-gateio/src/main/java/com/troy/streamingexchange/gateio/service/netty/AbstractNettyStreamingService.java:322-323 | A message for a channel nobody subscribed to raises a NullPointerException. |
| Routing.RouteChecked | troy-trade-ws-gateio/src/main/java/com/troy/streamingexchange/gateio/service/netty/AbstractNettyStreamingService.java:322-343 | The intended routing for messages and errors alike: never raises; delivers iff the channel is non-null and registered, otherwise drops. |
| Routing.CheckedMessageAgrees | troy-trade-ws-gateio/src/main/java/com/troy/streamingexchange/gateio/service/netty/AbstractNettyStreamingService.java:322-330 | The checked handler delivers where the code delivers, and drops exactly where the code raises. |
| Routing.HandleChannelError | troy-trade-ws-gateio/src/main/java/com/troy/streamingexchange/gateio/service/netty/AbstractNettyStreamingService.java:332-344 | Never dropped: an error is delivered to its channel iff the channel is non-null and registered, and raises a NullPointerException otherwise. |
| Routing.HandleMessage | troy-trade-ws-gateio/src/main/java/com/troy/streamingexchange/gateio/service/netty/AbstractNettyStreamingService.java:311-314 | A message is delivered to the channel getChannel names, iff that channel is registered ("" when parsing fails). Otherwise a NullPointerException. |
| Routing.HandleError | troy-trade-ws-gateio/src/main/java/com/troy/streamingexchange/gateio/service/netty/AbstractNettyStreamingService.java:316-319 | An error is delivered to the channel getChannel names, iff that channel is registered ("" when parsing fails). Otherwise a NullPointerException. |
| Routing.ErrorGuardNeverFires | troy-trade-ws-gateio/src/main/java/com/troy/streamingexchange/gateio/service/netty/AbstractNettyStreamingService.java:332-343 | The guard "channel does not contain itself" never fires, so the error handler routes exactly as the unguarded message handler. |
| Routing.UnregisteredErrorRaises | troy-trade-ws-gateio/src/main/java/com/troy/streamingexchange/gateio/service/netty/AbstractNettyStreamingService.java:316-337 | An error for a channel nobody subscribed to passes the guard and raises a NullPointerException. |
| Routing.CheckedErrorAgrees | troy-trade-ws-gateio/src/main/java/com/troy/streamingexchange/gateio/service/netty/AbstractNettyStreamingService.java:332-343 | The checked error handler delivers exactly where the code delivers, and drops exactly where the code raises. |
| Text.ContainsSelf | troy-trade-ws-gateio/src/main/java/com/troy/streamingexchange/gateio/service/netty/AbstractNettyStreamingService.java:333 | Every string contains itself. |

## Left out

- Netty plumbing is not modelled: the bootstrap, pipeline, SSL context, HTTP codec, compression, extension and idle handlers (lines 118-158). A failed TCP connect and a failed handshake both appear as `DialFailed`.
- The order of `Completed` and `CloseLink` in `Disconnect` is not guaranteed by the program. The completion runs in the close frame's write listener (lines 188-191), and `close()` is called as soon as that listener is registered (line 194). The model places the completion first.
- The RxJava completables and observables are not modelled: emitters, `share()`, and the timing of dispose against errors. Subscribe and dispose are explicit registry operations, and stream errors are `StreamError` effects. The emitter is never null, so the "no subscriber" branches at lines 324-327 and 338-341 cannot be reached and are not modelled.
- The 10-second reconnect delay and the 3000 ms `CountDownLatch` wait are not modelled as time. The first is the `ScheduleReconnect` effect. The second has no effect, because nothing counts the latch down.
- Redis and the Spring bean lookup are abstracted to the `(count, ttl)` pair. The key's real countdown to expiry, and sharing it across processes, are not modelled.
- Concurrency is not modelled: `ConcurrentHashMap` thread safety, and races between the event loop and callers. The replay takes the key order as a parameter, since the map's iteration order is unspecified.
- `getSubscribeMessage`, `getUnsubscribeMessage`, `getChannelNameFromMessage`, `CommonUtil.getNonce`, `CommonUtil.getSignature` and the `GateioWebsocketTypes` values are parameters. A checked exception thrown by `getSignature` is not modelled, only an unchecked one.
- Not modelled: logging, `StopWatch`, `isSocketOpen`, `useCompressedMessages`, the constructor's URI parsing, and `BitfinexDepth`. None of them takes a decision of the core.
- `equalsIgnoreCase` folds ASCII letters only. The URI grammar of RFC 2396, section 3.1, that `java.net.URI` enforces admits only ASCII letters, digits, "+", "-" and "." in a scheme. So the non-ASCII folds of `equalsIgnoreCase` (such as U+017F to "S") can never meet a scheme.
- The link is fixed for the whole of a replay. `sendMessage` reads `isOpen()` and `isWritable()` again on every call (lines 224 and 229), and the replay waits up to 3 s after each authentication (line 283). So a close or backpressure in mid-replay would drop later frames, which the model cannot show. `ResubscribeReplaysEveryEntry` and `ReconnectRestoresSubscriptions` depend on this.
- Reconnection.ChannelInactive: never fails. In the code, a failing `getBean`, `increment`, `ttl` or `expire` call ends `channelInactive` after `ctx.close()` with no reconnect scheduled (lines 365-402). The Redis client is not part of this model.
- Resubscription.ReplayDrawsNonces: states only that the counter moves past at least one nonce per authentication. It does not tie each authentication to the exact index it drew.
- Resubscription.ReplayCounts: states "exactly one auth send per ORDER entry" only when builders never fail. A failed auth build sends nothing, so the count is then zero.

## Findings

| source | as written | input that shows it | evidently intended | confidence | as-written member | corrected member |
|---|---|---|---|---|---|---|
| troy-trade-ws-gateio/src/main/java/com/troy/streamingexchange/gateio/service/netty/AbstractNettyStreamingService.java:322-323 | The registry lookup is dereferenced without a key check. | A message for a channel nobody subscribed to, or one whose channel cannot be parsed (channel ""). | Log it and drop it. | not executed | Routing.UnregisteredMessageRaises | Routing.CheckedMessageAgrees |
| troy-trade-ws-gateio/src/main/java/com/troy/streamingexchange/gateio/service/netty/AbstractNettyStreamingService.java:333 | The guard tests whether the channel name contains itself, which is always true, so the guard never fires. | An error for an unregistered channel "spot.trades" passes the guard and raises a NullPointerException. | Reject channels missing from the registry. | not executed | Routing.ErrorGuardNeverFires | Routing.CheckedErrorAgrees |
| troy-trade-ws-gateio/src/main/java/com/troy/streamingexchange/gateio/service/netty/AbstractNettyStreamingService.java:244-246 | After signalling `NotConnectedException` the method carries on and registers the channel. | Subscribe to "trades" while disconnected, connect, then subscribe again: no frame is ever sent. | Return after signalling, so that the later subscribe sends its frame. | not executed | Registry.EarlySubscribeSuppressesLaterFrame | Registry.GuardedSubscribeSendsAfterConnect |

=== FILE: connection.dfy ===
/** Connection manager: `sendMessage`, `connect` and `disconnect`. */
module Connection {
  import opened Wrappers
  import opened Endpoints
  import opened Streaming

  /** The link accepts a frame: the channel exists, is open and writable. */
  predicate Usable(link: Link)
  {
    link.open && link.writable
  }

  /** `sendMessage`: a text frame is written exactly when the link is usable
      and the message is non-null; otherwise nothing happens and nothing is
      raised. */
  function SendMessage(link: Link, message: Option<string>): (frames: seq<Action>)
    ensures |frames| <= 1
    ensures |frames| == 1 <==> Usable(link) && message.Some?
    ensures |frames| == 1 ==> frames[0] == TextFrame(message.value)
  {
    if !link.open then []
    else if !link.writable then []
    else if message.Some? then [TextFrame(message.value)]
    else []
  }

  /** The frame texts of one `sendMessage` call. */
  lemma FramesOfSend(link: Link, message: Option<string>)
    ensures FramesOf(SendMessage(link, message)) ==
              if Usable(link) && message.Some? then [message.value] else []
  {
    var f := SendMessage(link, message);
    if |f| == 1 {
      assert f == [TextFrame(message.value)];
    }
  }

  /** The non-null messages among some, in order. */
  function Present(messages: seq<Option<string>>): seq<string>
  {
    if messages == [] then []
    else (if messages[0].Some? then [messages[0].value] else []) + Present(messages[1..])
  }

  /** Every non-null message is among the present ones. */
  lemma {:induction false} PresentHas(messages: seq<Option<string>>, j: nat)
    requires j < |messages| && messages[j].Some?
    ensures messages[j].value in Present(messages)
    decreases j
  {
    if j > 0 {
      PresentHas(messages[1..], j - 1);
      assert messages[1..][j - 1] == messages[j];
    }
  }

  /** `sendMessage` called once per message over a link that does not change
      in between. */
  function SendAll(link: Link, messages: seq<Option<string>>): (frames: seq<Action>)
    ensures forall j :: 0 <= j < |frames| ==> frames[j].TextFrame?
  {
    if messages == [] then [] else SendMessage(link, messages[0]) + SendAll(link, messages[1..])
  }

  /** Over a usable link every non-null message goes out, in order; over any
      other link nothing does. */
  lemma {:induction false} SendAllFrames(link: Link, messages: seq<Option<string>>)
    ensures Usable(link) ==> FramesOf(SendAll(link, messages)) == Present(messages)
    ensures !Usable(link) ==> SendAll(link, messages) == []
    decreases |messages|
  {
    if messages != [] {
      SendAllFrames(link, messages[1..]);
      FramesOfAppend(SendMessage(link, messages[0]), SendAll(link, messages[1..]));
    }
  }

  /** How the transport answers a dial that was made. */
  datatype DialOutcome = DialFailed | Established(writable: bool)

  /** `connect`: resolve the endpoint; if that fails, the completable fails
      and no connection is attempted. Otherwise dial, remember the resulting
      channel, and complete or fail with the transport. */
  function Connect(s: State, u: Uri, dial: DialOutcome): (st: Step)
    ensures st.thrown.None?
    ensures st.state.channels == s.channels && st.state.manualDisconnect == s.manualDisconnect
    ensures st.state.budget == s.budget
    ensures Resolve(u).Failure? ==>
              st.state == s && st.actions == [Errored(BadEndpoint(Resolve(u).error))]
    ensures (exists ep :: Dial(ep) in st.actions) <==> Resolve(u).Success?
    ensures forall ep :: Dial(ep) in st.actions ==> Resolve(u).Success? && ep == Resolve(u).value
    ensures st.state.noncesDrawn == s.noncesDrawn
    ensures Completed in st.actions <==> Resolve(u).Success? && dial.Established?
    ensures Completed in st.actions ==> st.state.link == Link(true, dial.writable)
    ensures FramesOf(st.actions) == []
    ensures Completed !in st.actions ==> !st.state.link.open || st.state.link == s.link
  {
    match Resolve(u)
    case Failure(e) => Step(s, [Errored(BadEndpoint(e))], None)
    case Success(ep) =>
      match dial
      case DialFailed =>
        NoFrames([Dial(ep), Errored(TransportFailure)]);
        Step(s.(link := Down), [Dial(ep), Errored(TransportFailure)], None)
      case Established(w) =>
        NoFrames([Dial(ep), Completed]);
        Step(s.(link := Link(true, w)), [Dial(ep), Completed], None)
  }

  /** `disconnect`: the manual flag is set at once. If the channel is open, a
      close frame is written, the registry is cleared when that write
      completes, the channel is closed and the completable completes. The
      event loop group is shut down in every case; when the channel was not
      open the completable never completes. */
  function Disconnect(s: State): (st: Step)
    ensures st.state.manualDisconnect
    ensures st.thrown.None? && st.state.budget == s.budget
    ensures !st.state.link.open
    ensures s.link.open ==> st.state.channels == map[] && |st.actions| > 0 && st.actions[0] == CloseFrame
    ensures !s.link.open ==> st.state.channels == s.channels && CloseFrame !in st.actions
    ensures Completed in st.actions <==> s.link.open
    ensures FramesOf(st.actions) == []
    ensures ScheduleReconnect !in st.actions
    ensures st.state.noncesDrawn == s.noncesDrawn
  {
    var s1 := s.(manualDisconnect := true);
    if s.link.open then
      Step(s1.(channels := map[], link := Down),
           [CloseFrame, Completed, CloseLink, ShutdownEventLoop], None)
    else
      Step(s1, [ShutdownEventLoop], None)
  }
}

=== FILE: endpoint.dfy ===
/** Endpoint resolution performed by `connect` before any socket is opened:
    the scheme defaults to "ws", only ws and wss (compared ignoring case) are
    accepted, the port defaults per scheme, and TLS follows the scheme. */
module Endpoints {
  import opened Wrappers
  import opened Text

  /** `java.net.URI` as far as `connect` reads it. An absent scheme or host
      is `None` (Java's null); `port` is -1 when the URI names no port. */
  datatype Uri = Uri(scheme: Option<string>, host: Option<string>, port: int)

  /** Where the bootstrap connects, and whether an SSL handler is installed. */
  datatype Endpoint = Endpoint(host: string, port: int, ssl: bool)

  /** The two `IllegalArgumentException`s `connect` raises. */
  datatype ConnectError = HostMissing | SchemeUnsupported

  const NoPort := -1
  const WsPort := 80
  const WssPort := 443

  /** The scheme `connect` works with: the URI's, or "ws" when it has none. */
  function EffectiveScheme(u: Uri): string
  {
    if u.scheme.None? then "ws" else u.scheme.value
  }

  predicate IsWs(scheme: string)
  {
    EqualsIgnoreCase("ws", scheme)
  }

  predicate IsWss(scheme: string)
  {
    EqualsIgnoreCase("wss", scheme)
  }

  /** The checks and derivations `connect` makes, in the source's order:
      the host test comes before the scheme test, so a URI with neither a
      host nor a supported scheme reports the missing host. */
  function Resolve(u: Uri): (r: Result<Endpoint, ConnectError>)
    ensures r == Failure(HostMissing) <==> u.host.None?
    ensures r.Success? <==> u.host.Some? && (IsWs(EffectiveScheme(u)) || IsWss(EffectiveScheme(u)))
    ensures r.Failure? && u.host.Some? ==> r.error == SchemeUnsupported
    ensures r.Success? ==> r.value.host == u.host.value
    ensures r.Success? ==> (r.value.ssl <==> IsWss(EffectiveScheme(u)))
    ensures r.Success? && u.port != NoPort ==> r.value.port == u.port
    ensures r.Success? && u.port == NoPort ==> r.value.port == (if r.value.ssl then WssPort else WsPort)
  {
    var scheme := EffectiveScheme(u);
    if u.host.None? then
      Failure(HostMissing)
    else
      var port :=
        if u.port == NoPort then
          (if IsWs(scheme) then WsPort else if IsWss(scheme) then WssPort else NoPort)
        else u.port;
      if !IsWs(scheme) && !IsWss(scheme) then
        Failure(SchemeUnsupported)
      else
        Success(Endpoint(u.host.value, port, IsWss(scheme)))
  }

  /** The spellings accepted as "ws" are exactly its four case variants. */
  lemma WsSpellings(s: string)
    ensures IsWs(s) <==> s in {"ws", "wS", "Ws", "WS"}
  {
    if IsWs(s) {
      assert UpperAscii(s[0]) == 'W' && UpperAscii(s[1]) == 'S';
      UpperAsciiInverse(s[0], 'W');
      UpperAsciiInverse(s[1], 'S');
      assert s == [s[0], s[1]];
    }
  }

  /** A URI without a scheme resolves exactly as if it said "ws". */
  lemma MissingSchemeIsWs(u: Uri)
    requires u.scheme.None?
    ensures Resolve(u) == Resolve(u.(scheme := Some("ws")))
  {
  }

  /** Resolution does not depend on the case of the scheme: two schemes
      equal ignoring case give the same endpoint, or both fail. */
  lemma ResolveIgnoresSchemeCase(u: Uri, a: string, b: string)
    requires EqualsIgnoreCase(a, b)
    ensures Resolve(u.(scheme := Some(a))).Success? <==> Resolve(u.(scheme := Some(b))).Success?
    ensures Resolve(u.(scheme := Some(a))).Success? ==>
              Resolve(u.(scheme := Some(a))) == Resolve(u.(scheme := Some(b)))
  {
    assert IsWs(a) <==> IsWs(b);
    assert IsWss(a) <==> IsWss(b);
  }

  /** TLS is chosen exactly for wss, and a resolved port is either the one
      the URI names or the scheme's default; -1 never reaches the bootstrap. */
  lemma ResolvedPortAndTls(u: Uri)
    requires Resolve(u).Success?
    ensures Resolve(u).value.ssl <==> !IsWs(EffectiveScheme(u))
    ensures Resolve(u).value.port == u.port || Resolve(u).value.port in {WsPort, WssPort}
    ensures Resolve(u).value.port != NoPort
  {
    var s := EffectiveScheme(u);
    if IsWs(s) {
      assert |s| == 2;
    } else {
      assert IsWss(s);
    }
  }
}

=== FILE: reconnect.dfy ===
/** `channelInactive` of the client handler and the reconnect it schedules.
    A close the client did not ask for charges a shared retry counter (a
    Redis key with a five-minute window); while the counter is within the
    ceiling the close is forwarded and a reconnect is scheduled, beyond it
    the window is shortened to thirty seconds. The closed context is released
    in every unexpected case. */
module Reconnection {
  import opened Wrappers
  import opened Endpoints
  import opened Streaming
  import opened Connection
  import opened Resubscription

  /** Unexpected closes tolerated per window. */
  const RetryCeiling := 30
  /** Window opened by the first counted close, in seconds (five minutes). */
  const RetryWindow := 300
  /** Window once the ceiling is passed, in seconds. */
  const ShortWindow := 30

  /** The shape the counter key keeps: absent (count 0, no ttl) or counted
      with a live expiry no longer than the full window. */
  predicate Budgeted(b: RetryBudget)
  {
    b == FreshBudget || (b.count > 0 && 0 < b.ttl <= RetryWindow)
  }

  /** `channelInactive`. After a manual disconnect the flag is consumed and
      nothing else happens. Otherwise the counter is incremented, given the
      full window if it has no expiry, and then either the inactivity is
      forwarded and a reconnect scheduled (count within the ceiling) or the
      window is cut to `ShortWindow` if longer; the context is closed last
      in both cases. The transport is gone either way. */
  function ChannelInactive(s: State): (st: Step)
    ensures st.thrown.None? && !st.state.manualDisconnect
    ensures st.state.channels == s.channels && !st.state.link.open
    ensures s.manualDisconnect ==> st.actions == [] && st.state.budget == s.budget
    ensures !s.manualDisconnect ==> st.state.budget.count == s.budget.count + 1
    ensures CloseContext in st.actions <==> !s.manualDisconnect
    ensures !s.manualDisconnect ==> |st.actions| > 0 && st.actions[|st.actions| - 1] == CloseContext
    ensures ScheduleReconnect in st.actions <==> !s.manualDisconnect && s.budget.count < RetryCeiling
    ensures ForwardInactive in st.actions <==> ScheduleReconnect in st.actions
    ensures FramesOf(st.actions) == []
    ensures !s.manualDisconnect && s.budget.ttl != NoExpiry ==> st.state.budget.ttl <= s.budget.ttl
    ensures !s.manualDisconnect ==> st.state.budget.ttl != NoExpiry
    ensures !s.manualDisconnect && s.budget.count >= RetryCeiling ==> st.state.budget.ttl <= ShortWindow
    ensures !s.manualDisconnect && s.budget.count < RetryCeiling ==>
              st.state.budget.ttl == if s.budget.ttl == NoExpiry then RetryWindow else s.budget.ttl
    ensures (!s.manualDisconnect && s.budget.count >= RetryCeiling
             && (s.budget.ttl == NoExpiry || s.budget.ttl > ShortWindow)) ==>
              st.state.budget.ttl == ShortWindow
    ensures (!s.manualDisconnect && s.budget.count >= RetryCeiling
             && s.budget.ttl != NoExpiry && s.budget.ttl <= ShortWindow) ==>
              st.state.budget.ttl == s.budget.ttl
    ensures Budgeted(s.budget) ==> Budgeted(st.state.budget)
    ensures st.state.noncesDrawn == s.noncesDrawn
  {
    if s.manualDisconnect then
      Step(s.(manualDisconnect := false, link := Down), [], None)
    else
      var count := s.budget.count + 1;
      var ttl := if s.budget.ttl == NoExpiry then RetryWindow else s.budget.ttl;
      var s' := s.(link := Down);
      var ttl' := if count <= RetryCeiling || ttl <= ShortWindow then ttl else ShortWindow;
      Step(s'.(budget := RetryBudget(count, ttl')), UnexpectedCloseEffects(count), None)
  }

  /** The effects of an unexpected close that brings the counter to `count`:
      forward and schedule while within the ceiling; close the context in
      every case, last. */
  function UnexpectedCloseEffects(count: int): (e: seq<Action>)
    ensures |e| > 0 && e[|e| - 1] == CloseContext
    ensures ScheduleReconnect in e <==> count <= RetryCeiling
    ensures ForwardInactive in e <==> count <= RetryCeiling
    ensures FramesOf(e) == []
  {
    var e := if count <= RetryCeiling then [ForwardInactive, ScheduleReconnect, CloseContext] else [CloseContext];
    NoFrames(e);
    e
  }

  /** Number of occurrences of `a` in `actions`. */
  function Occurrences(actions: seq<Action>, a: Action): nat
  {
    if actions == [] then 0
    else (if actions[0] == a then 1 else 0) + Occurrences(actions[1..], a)
  }

  lemma {:induction false} OccurrencesAppend(x: seq<Action>, y: seq<Action>, a: Action)
    ensures Occurrences(x + y, a) == Occurrences(x, a) + Occurrences(y, a)
    decreases |x|
  {
    if x == [] {
      assert x + y == y;
    } else {
      assert (x + y)[1..] == x[1..] + y;
      OccurrencesAppend(x[1..], y, a);
    }
  }

  /** A close handler that, on a close the client did not ask for, counts
      it once, leaves the flag clear and takes the effects the counter
      dictates. */
  ghost predicate CountsCloses(close: State -> Step)
  {
    forall s: State {:trigger close(s)} :: !s.manualDisconnect ==>
      && Occurrences(close(s).actions, ScheduleReconnect) == (if s.budget.count < RetryCeiling then 1 else 0)
      && Occurrences(close(s).actions, CloseContext) == 1
      && !close(s).state.manualDisconnect
      && close(s).state.budget.count == s.budget.count + 1
  }

  /** `n` closes in a row handled by `close`: the final state and all the
      effects taken. */
  function Repeat(close: State -> Step, s: State, n: nat): Step
    decreases n
  {
    if n == 0 then Step(s, [], None)
    else
      var first := close(s);
      var rest := Repeat(close, first.state, n - 1);
      Step(rest.state, first.actions + rest.actions, None)
  }

  /** `n` unexpected closes in a row, with no time passing and no reconnect
      succeeding in between. */
  function Closes(s: State, n: nat): Step
  {
    Repeat(ChannelInactive, s, n)
  }

  lemma EffectCounts(count: int)
    ensures Occurrences(UnexpectedCloseEffects(count), ScheduleReconnect) == if count <= RetryCeiling then 1 else 0
    ensures Occurrences(UnexpectedCloseEffects(count), CloseContext) == 1
  {
    var last: seq<Action> := [CloseContext];
    assert last[1..] == [];
    assert Occurrences(last, ScheduleReconnect) == 0 && Occurrences(last, CloseContext) == 1;
    if count <= RetryCeiling {
      var e := UnexpectedCloseEffects(count);
      assert e[1..][1..] == last;
      assert Occurrences(e[1..], ScheduleReconnect) == 1;
    }
  }

  /** Any handler that counts closes schedules a reconnect for exactly the
      closes that stay within the ceiling. */
  lemma {:induction false} RepeatCounts(close: State -> Step, s: State, n: nat)
    requires CountsCloses(close)
    requires !s.manualDisconnect && s.budget.count >= 0
    ensures var st := Repeat(close, s, n);
      var allowed := if s.budget.count >= RetryCeiling then 0 else RetryCeiling - s.budget.count;
      && Occurrences(st.actions, ScheduleReconnect) == (if n <= allowed then n else allowed)
      && Occurrences(st.actions, CloseContext) == n
      && st.state.budget.count == s.budget.count + n
    decreases n
  {
    if n > 0 {
      var first := close(s);
      var rest := Repeat(close, first.state, n - 1);
      RepeatCounts(close, first.state, n - 1);
      OccurrencesAppend(first.actions, rest.actions, ScheduleReconnect);
      OccurrencesAppend(first.actions, rest.actions, CloseContext);
    }
  }

  /** Within one window, `n` unexpected closes starting from `count` earlier
      ones schedule a reconnect for exactly those that stay within the
      ceiling: from a fresh counter, `min(n, 30)` reconnects, and none from
      the thirty-first close on. Every close still closes its context. */
  lemma RetryCeilingHolds(s: State, n: nat)
    requires !s.manualDisconnect && s.budget.count >= 0
    ensures var st := Closes(s, n);
      var allowed := if s.budget.count >= RetryCeiling then 0 else RetryCeiling - s.budget.count;
      && Occurrences(st.actions, ScheduleReconnect) == (if n <= allowed then n else allowed)
      && Occurrences(st.actions, CloseContext) == n
      && st.state.budget.count == s.budget.count + n
  {
    forall s': State | !s'.manualDisconnect
      ensures Occurrences(ChannelInactive(s').actions, ScheduleReconnect) == (if s'.budget.count < RetryCeiling then 1 else 0)
      ensures Occurrences(ChannelInactive(s').actions, CloseContext) == 1
    {
      EffectCounts(s'.budget.count + 1);
    }
    RepeatCounts(ChannelInactive, s, n);
  }

  /** The close that follows `disconnect` is absorbed: no reconnect, no
      charge to the counter. The flag is consumed, so the next unexpected
      close is counted again. */
  lemma ManualDisconnectSuppressesReconnect(s: State)
    ensures var closed := ChannelInactive(Disconnect(s).state);
      && closed.actions == []
      && closed.state.budget == s.budget
      && ChannelInactive(closed.state).state.budget.count == s.budget.count + 1
  {
  }

  /** The task scheduled by `channelInactive`: `connect`, and on its
      completion `resubscribeChannels`. */
  function ReconnectTask(ex: Exchange, s: State, u: Uri, dial: DialOutcome, order: seq<string>): (st: Step)
    requires Enumerates(order, s.channels)
    ensures st.state.channels == s.channels && st.state.budget == s.budget
    ensures FramesOf(st.actions) != [] ==> Resolve(u).Success? && dial == Established(true)
    ensures st.thrown.Some? ==> Resolve(u).Success? && dial.Established?
  {
    var c := Connect(s, u, dial);
    if Completed in c.actions then
      var r := ResubscribeChannels(ex, c.state, order);
      FramesOfAppend(c.actions, r.actions);
      Step(r.state, c.actions + r.actions, r.thrown)
    else
      c
  }

  /** A reconnect whose endpoint does not resolve dials nothing and sends
      nothing: it only reports the failure. */
  lemma BadEndpointDialsNothing(ex: Exchange, s: State, u: Uri, dial: DialOutcome, order: seq<string>)
    requires Enumerates(order, s.channels) && Resolve(u).Failure?
    ensures var st := ReconnectTask(ex, s, u, dial, order);
      st.state == s && st.actions == [Errored(BadEndpoint(Resolve(u).error))] && st.thrown.None?
  {
  }

  /** A reconnect that reaches a writable channel and whose replay runs to
      the end puts every replayed entry's subscribe message back on the
      wire. */
  lemma ReconnectRestoresSubscriptions(ex: Exchange, s: State, u: Uri, order: seq<string>, id: string, text: string)
    requires Enumerates(order, s.channels) && Resolve(u).Success?
    requires id in s.channels && IsReplayed(ex.markers, s.channels[id].channelName)
    requires Yields(ex.subscribeMessage(s.channels[id].channelName, s.channels[id].args), text)
    ensures var st := ReconnectTask(ex, s, u, Established(true), order);
      st.thrown.None? ==> text in FramesOf(st.actions)
  {
    var c := Connect(s, u, Established(true));
    ResubscribeReplaysEveryEntry(ex, c.state, order, id, text);
    var r := ResubscribeChannels(ex, c.state, order);
    FramesOfAppend(c.actions, r.actions);
  }
}

=== FILE: registry.dfy ===
/** Subscription registry: `subscribeChannel` and its dispose hook, modelled
    as explicit operations on the registry map. */
module Registry {
  import opened Wrappers
  import opened Streaming
  import opened Connection

  /** The frames a subscribe or unsubscribe build puts on the link. */
  function BuildFrames(link: Link, b: Build): seq<Action>
  {
    match b
    case Built(m) => SendMessage(link, m)
    case BuildFailed => []
  }

  /** `subscribeChannel` as written: when the channel is not open the stream
      is signalled `NotConnected`, but the method carries on; an id not yet
      registered is then stored and its subscribe message is handed to
      `sendMessage` (a builder failure is signalled to the stream instead). */
  function Subscribe(ex: Exchange, s: State, name: string, args: seq<Arg>): (st: Step)
    ensures var id := ex.subscriptionId(name, args);
      && st.thrown.None?
      && st.state.link == s.link && st.state.manualDisconnect == s.manualDisconnect
      && st.state.budget == s.budget
      && (id in s.channels ==> st.state == s && FramesOf(st.actions) == [])
      && (id !in s.channels ==>
            st.state.channels == s.channels[id := Subscription(name, args)])
      && (StreamError(id, NotConnected) in st.actions <==> !s.link.open)
      && |FramesOf(st.actions)| <= 1
      && (StreamError(id, SubscribeBuildFailed) in st.actions <==>
            id !in s.channels && ex.subscribeMessage(name, args).BuildFailed?)
      && (forall a :: a in st.actions ==> a.TextFrame? || a.StreamError?)
      && (forall t :: FramesOf(st.actions) == [t] <==>
            id !in s.channels && Usable(s.link) && Yields(ex.subscribeMessage(name, args), t))
  {
    var id := ex.subscriptionId(name, args);
    var signal := if !s.link.open then [StreamError(id, NotConnected)] else [];
    if id in s.channels then
      Step(s, signal, None)
    else
      var s' := s.(channels := s.channels[id := Subscription(name, args)]);
      var b := ex.subscribeMessage(name, args);
      var tail := if b.BuildFailed? then [StreamError(id, SubscribeBuildFailed)] else BuildFrames(s.link, b);
      FramesOfAppend(signal, tail);
      assert FramesOf(signal) == [];
      FramesOfSend(s.link, if b.Built? then b.message else None);
      Step(s', signal + tail, None)
  }

  /** The dispose hook: a registered id gets its unsubscribe message handed to
      `sendMessage` and is then removed. A builder failure escapes the hook
      before the removal, so the entry stays. An unknown id changes nothing. */
  function Dispose(ex: Exchange, s: State, id: string): (st: Step)
    ensures st.state.link == s.link && st.state.manualDisconnect == s.manualDisconnect
    ensures st.state.budget == s.budget
    ensures id !in s.channels ==> st.state == s && st.actions == [] && st.thrown.None?
    ensures id in s.channels && ex.unsubscribeMessage(id).Built? ==>
              st.state.channels == s.channels - {id} && st.thrown.None?
    ensures ex.unsubscribeMessage(id).BuildFailed? ==>
              st.state == s && (st.thrown.Some? <==> id in s.channels)
    ensures forall other :: other != id && other in s.channels ==>
              other in st.state.channels && st.state.channels[other] == s.channels[other]
    ensures st.state.channels.Keys <= s.channels.Keys
    ensures forall t :: FramesOf(st.actions) == [t] <==>
              id in s.channels && Usable(s.link) && Yields(ex.unsubscribeMessage(id), t)
    ensures |FramesOf(st.actions)| <= 1
  {
    if id !in s.channels then
      Step(s, [], None)
    else
      match ex.unsubscribeMessage(id)
      case BuildFailed => Step(s, [], Some(UnsubscribeBuildFailed))
      case Built(m) =>
        FramesOfSend(s.link, m);
        Step(s.(channels := s.channels - {id}), SendMessage(s.link, m), None)
  }

  /** With the base class's id derivation, a new subscription is stored under
      its channel name. */
  lemma DefaultIdIsChannelName(ex: Exchange, s: State, name: string, args: seq<Arg>)
    requires UsesDefaultId(ex)
    requires name !in s.channels
    ensures Subscribe(ex, s, name, args).state.channels == s.channels[name := Subscription(name, args)]
  {
    assert ex.subscriptionId(name, args) == DefaultSubscriptionId(name, args);
  }

  /** Subscribing again to the same channel changes nothing and sends
      nothing, whether or not the link is open. */
  lemma SubscribeIdempotent(ex: Exchange, s: State, name: string, args: seq<Arg>)
    ensures var s1 := Subscribe(ex, s, name, args).state;
      Subscribe(ex, s1, name, args).state == s1
      && FramesOf(Subscribe(ex, s1, name, args).actions) == []
  {
  }

  /** `n` subscribe calls for the same channel in a row. */
  function SubscribeRepeatedly(ex: Exchange, s: State, name: string, args: seq<Arg>, n: nat): (st: Step)
    decreases n
  {
    if n == 0 then Step(s, [], None)
    else
      var first := Subscribe(ex, s, name, args);
      var rest := SubscribeRepeatedly(ex, first.state, name, args, n - 1);
      Step(rest.state, first.actions + rest.actions, None)
  }

  /** Any number of subscribe calls for one channel put at most one subscribe
      frame on the wire. */
  lemma {:induction false} AtMostOneSubscribeFrame(ex: Exchange, s: State, name: string, args: seq<Arg>, n: nat)
    ensures |FramesOf(SubscribeRepeatedly(ex, s, name, args, n).actions)| <= 1
    ensures n > 0 ==> ex.subscriptionId(name, args) in SubscribeRepeatedly(ex, s, name, args, n).state.channels
    decreases n
  {
    if n > 0 {
      var first := Subscribe(ex, s, name, args);
      var rest := SubscribeRepeatedly(ex, first.state, name, args, n - 1);
      AtMostOneSubscribeFrame(ex, first.state, name, args, n - 1);
      FramesOfAppend(first.actions, rest.actions);
      if n > 1 {
        SilentOnceRegistered(ex, first.state, name, args, n - 1);
      }
    }
  }

  /** Once the id is registered, further subscribe calls send no frame. */
  lemma {:induction false} SilentOnceRegistered(ex: Exchange, s: State, name: string, args: seq<Arg>, n: nat)
    requires ex.subscriptionId(name, args) in s.channels
    ensures SubscribeRepeatedly(ex, s, name, args, n).state == s
    ensures FramesOf(SubscribeRepeatedly(ex, s, name, args, n).actions) == []
    decreases n
  {
    if n > 0 {
      var first := Subscribe(ex, s, name, args);
      SilentOnceRegistered(ex, first.state, name, args, n - 1);
      FramesOfAppend(first.actions, SubscribeRepeatedly(ex, first.state, name, args, n - 1).actions);
    }
  }

  /** Subscribing to a new channel and disposing of it restores the registry
      and sends one subscribe and one unsubscribe frame over a usable link. */
  lemma SubscribeThenDispose(ex: Exchange, s: State, name: string, args: seq<Arg>, sub: string, unsub: string)
    requires ex.subscriptionId(name, args) !in s.channels
    requires Usable(s.link)
    requires Yields(ex.subscribeMessage(name, args), sub)
    requires Yields(ex.unsubscribeMessage(ex.subscriptionId(name, args)), unsub)
    ensures var s1 := Subscribe(ex, s, name, args);
      var s2 := Dispose(ex, s1.state, ex.subscriptionId(name, args));
      s2.state == s && FramesOf(s1.actions) + FramesOf(s2.actions) == [sub, unsub]
  {
    var id := ex.subscriptionId(name, args);
    var s1 := Subscribe(ex, s, name, args);
    assert FramesOf(s1.actions) == [sub];
    var s2 := Dispose(ex, s1.state, id);
    assert FramesOf(s2.actions) == [unsub];
    assert s2.state.channels == s.channels;
  }

  /** Subscribe and dispose keep every entry under the id its own name and
      arguments derive. */
  lemma WellKeyedPreserved(ex: Exchange, s: State, name: string, args: seq<Arg>, id: string)
    requires WellKeyed(ex, s.channels)
    ensures WellKeyed(ex, Subscribe(ex, s, name, args).state.channels)
    ensures WellKeyed(ex, Dispose(ex, s, id).state.channels)
  {
  }

  /** `subscribeChannel` as evidently intended: return after signalling
      `NotConnected`, so nothing is registered while the link is down. */
  function SubscribeConnected(ex: Exchange, s: State, name: string, args: seq<Arg>): (st: Step)
    ensures var id := ex.subscriptionId(name, args);
      && st.thrown.None?
      && st.state.link == s.link && st.state.manualDisconnect == s.manualDisconnect
      && st.state.budget == s.budget
      && (StreamError(id, NotConnected) in st.actions <==> !s.link.open)
      && (forall c :: c in st.state.channels ==> c in s.channels || s.link.open)
      && (forall c :: c in s.channels ==> c in st.state.channels && st.state.channels[c] == s.channels[c])
      && (id in st.state.channels <==> id in s.channels || s.link.open)
      && (!s.link.open ==> st.state == s)
      && (s.link.open ==>
            st.state.channels == if id in s.channels then s.channels else s.channels[id := Subscription(name, args)])
      && (forall t :: FramesOf(st.actions) == [t] <==>
            id !in s.channels && Usable(s.link) && Yields(ex.subscribeMessage(name, args), t))
      && |FramesOf(st.actions)| <= 1
      && (StreamError(id, SubscribeBuildFailed) in st.actions <==>
            s.link.open && id !in s.channels && ex.subscribeMessage(name, args).BuildFailed?)
      && (forall a :: a in st.actions ==> a.TextFrame? || a.StreamError?)
  {
    if !s.link.open then Step(s, [StreamError(ex.subscriptionId(name, args), NotConnected)], None)
    else Subscribe(ex, s, name, args)
  }

  /** As written, a subscribe attempted while disconnected registers the
      channel, so subscribing again once the link is up sends no frame. */
  lemma EarlySubscribeSuppressesLaterFrame(ex: Exchange, s: State, name: string, args: seq<Arg>, up: Link)
    requires !s.link.open && ex.subscriptionId(name, args) !in s.channels
    ensures var s1 := Subscribe(ex, s, name, args).state.(link := up);
      FramesOf(Subscribe(ex, s1, name, args).actions) == []
  {
  }

  /** With the guard, the same sequence sends exactly the subscribe frame
      once the link is usable. */
  lemma GuardedSubscribeSendsAfterConnect(ex: Exchange, s: State, name: string, args: seq<Arg>, up: Link, text: string)
    requires !s.link.open && ex.subscriptionId(name, args) !in s.channels
    requires Usable(up) && Yields(ex.subscribeMessage(name, args), text)
    ensures var s1 := SubscribeConnected(ex, s, name, args).state.(link := up);
      FramesOf(SubscribeConnected(ex, s1, name, args).actions) == [text]
  {
  }
}

=== FILE: resubscribe.dfy ===
/** `resubscribeChannels`: replay of the registry after a reconnect. Each
    entry is handled in turn: an ORDER channel first gets an authentication
    subscribe on its own credentials, SERVER_SIGN and SERVER_PING channels are
    not replayed themselves, and every other entry gets its stored subscribe
    message again. A builder `IOException` costs only its own message; an
    unchecked exception (short or null credentials, a failing signature)
    escapes the loop and ends the replay. */
module Resubscription {
  import opened Wrappers
  import opened Text
  import opened Streaming
  import opened Connection

  datatype Intent = Auth | Resubscribe

  /** One call of `sendMessage` made by the replay, on behalf of a registry
      entry. */
  datatype Outgoing = Outgoing(channelId: string, intent: Intent, message: Option<string>)

  /** What handling one entry does: its sends, how many nonces it drew, and
      the exception that escapes it, if any. */
  datatype EntryReplay = EntryReplay(sends: seq<Outgoing>, noncesUsed: nat, fault: Option<Fault>)

  /** What a replay does: its sends, the exception that ends it (if any),
      and how many nonces it drew. */
  datatype ReplayLog = ReplayLog(sends: seq<Outgoing>, fault: Option<Fault>, noncesUsed: nat)

  predicate IsOrderChannel(m: Markers, name: string)
  {
    Contains(name, m.order)
  }

  /** Neither the sign channel nor the ping channel. */
  predicate IsReplayed(m: Markers, name: string)
  {
    !Contains(name, m.serverSign) && !Contains(name, m.serverPing)
  }

  /** `args[0].toString()` and `args[1].toString()`, evaluated in that order;
      a missing argument or a null one throws. */
  function Credentials(args: seq<Arg>): (r: Result<(string, string), Fault>)
    ensures r.Success? <==> |args| >= 2 && !args[0].NullArg? && !args[1].NullArg?
    ensures r.Success? ==> r.value == (ArgText(args[0]), ArgText(args[1]))
    ensures r.Failure? ==> r.error == NullPointer || r.error == IndexOutOfBounds
    ensures r.Failure? ==>
              (r.error == NullPointer <==> (|args| > 0 && args[0].NullArg?) || (|args| > 1 && args[1].NullArg?))
  {
    if |args| == 0 then Failure(IndexOutOfBounds)
    else if args[0].NullArg? then Failure(NullPointer)
    else if |args| == 1 then Failure(IndexOutOfBounds)
    else if args[1].NullArg? then Failure(NullPointer)
    else Success((ArgText(args[0]), ArgText(args[1])))
  }

  function SignChannelName(m: Markers, apiKey: string): string
  {
    m.serverSign + "-" + apiKey
  }

  /** The authentication subscribe message for an api key, signature and nonce. */
  function AuthBuild(ex: Exchange, apiKey: string, signature: string, nonce: int): Build
  {
    ex.subscribeMessage(SignChannelName(ex.markers, apiKey), [StrArg(apiKey), StrArg(signature), LongArg(nonce)])
  }

  /** `message` is an authentication subscribe built from the entry's own
      credentials, some nonce, and the signature of its secret over that nonce. */
  ghost predicate IsAuthFor(ex: Exchange, sub: Subscription, message: Option<string>)
  {
    && Credentials(sub.args).Success?
    && var key := Credentials(sub.args).value.0;
       var secret := Credentials(sub.args).value.1;
       exists n :: ex.signature(secret, n).Some? &&
         AuthBuild(ex, key, ex.signature(secret, n).value, n) == Built(message)
  }

  /** A send carries what the registry entry it belongs to prescribes. */
  ghost predicate Faithful(ex: Exchange, channels: map<string, Subscription>, o: Outgoing)
  {
    && o.channelId in channels
    && (o.intent == Resubscribe ==>
          ex.subscribeMessage(channels[o.channelId].channelName, channels[o.channelId].args) == Built(o.message))
    && (o.intent == Auth ==>
          IsOrderChannel(ex.markers, channels[o.channelId].channelName)
          && IsAuthFor(ex, channels[o.channelId], o.message))
  }

  /** Number of sends for `id` with the given intent. */
  function CountSends(sends: seq<Outgoing>, id: string, intent: Intent): nat
  {
    if sends == [] then 0
    else (if sends[0].channelId == id && sends[0].intent == intent then 1 else 0)
         + CountSends(sends[1..], id, intent)
  }

  lemma {:induction false} CountSendsAppend(a: seq<Outgoing>, b: seq<Outgoing>, id: string, intent: Intent)
    ensures CountSends(a + b, id, intent) == CountSends(a, id, intent) + CountSends(b, id, intent)
    decreases |a|
  {
    if a == [] {
      assert a + b == b;
    } else {
      assert (a + b)[1..] == a[1..] + b;
      CountSendsAppend(a[1..], b, id, intent);
    }
  }

  lemma {:induction false} CountSendsAbsent(sends: seq<Outgoing>, id: string, intent: Intent)
    requires forall j :: 0 <= j < |sends| ==> sends[j].channelId != id
    ensures CountSends(sends, id, intent) == 0
    decreases |sends|
  {
    if sends != [] {
      CountSendsAbsent(sends[1..], id, intent);
    }
  }

  /** How many replayed subscribes an entry should get: one, unless it is a
      sign or ping channel or its subscribe message cannot be built. */
  function ExpectedReplays(ex: Exchange, sub: Subscription): nat
  {
    if IsReplayed(ex.markers, sub.channelName) && ex.subscribeMessage(sub.channelName, sub.args).Built?
    then 1 else 0
  }

  /** For every id, its authentication send (if any) comes immediately before
      its replayed subscribe (if any). */
  ghost predicate AuthFirst(sends: seq<Outgoing>)
  {
    forall a, b ::
      (0 <= a < |sends| && 0 <= b < |sends| &&
       sends[a].intent == Auth && sends[b].intent == Resubscribe &&
       sends[a].channelId == sends[b].channelId) ==> b == a + 1
  }

  ghost predicate BuildsAlways(ex: Exchange)
  {
    forall name, args :: ex.subscribeMessage(name, args).Built?
  }

  ghost predicate SignsAlways(ex: Exchange)
  {
    forall secret, n :: ex.signature(secret, n).Some?
  }

  /** The authentication step for one ORDER entry with nonce `nonce`. */
  function AuthSends(ex: Exchange, id: string, key: string, secret: string, nonce: int): (r: Result<seq<Outgoing>, Fault>)
    ensures r.Failure? <==> ex.signature(secret, nonce).None?
    ensures r.Failure? ==> r.error == SignatureFailure
    ensures r.Success? ==> |r.value| <= 1
    ensures r.Success? && |r.value| == 1 ==>
              r.value[0].channelId == id && r.value[0].intent == Auth &&
              AuthBuild(ex, key, ex.signature(secret, nonce).value, nonce) == Built(r.value[0].message)
    ensures r.Success? && |r.value| == 0 ==>
              AuthBuild(ex, key, ex.signature(secret, nonce).value, nonce).BuildFailed?
  {
    match ex.signature(secret, nonce)
    case None => Failure(SignatureFailure)
    case Some(sig) =>
      match AuthBuild(ex, key, sig, nonce)
      case Built(msg) => Success([Outgoing(id, Auth, msg)])
      case BuildFailed => Success([])
  }

  /** One iteration of the replay loop, for entry `id` drawing nonce number `k`. */
  function ReplayEntry(ex: Exchange, id: string, sub: Subscription, k: nat): (e: EntryReplay)
    ensures forall j :: 0 <= j < |e.sends| ==> e.sends[j].channelId == id
    ensures e.fault.Some? ==> e.sends == [] && IsOrderChannel(ex.markers, sub.channelName)
  {
    var m := ex.markers;
    var isOrder := IsOrderChannel(m, sub.channelName);
    var auth: Result<seq<Outgoing>, Fault> :=
      if !isOrder then Success([])
      else if Credentials(sub.args).Failure? then Failure(Credentials(sub.args).error)
      else
        var c := Credentials(sub.args).value;
        AuthSends(ex, id, c.0, c.1, ex.nonce(k));
    var used := if isOrder && Credentials(sub.args).Success? then 1 else 0;
    if auth.Failure? then
      EntryReplay([], used, Some(auth.error))
    else
      EntryReplay(auth.value + ReplaySend(ex, id, sub), used, None)
  }

  /** The replayed subscribe of an entry: none for sign and ping channels or
      when the message cannot be built. */
  function ReplaySend(ex: Exchange, id: string, sub: Subscription): seq<Outgoing>
  {
    var b := ex.subscribeMessage(sub.channelName, sub.args);
    if IsReplayed(ex.markers, sub.channelName) && b.Built? then [Outgoing(id, Resubscribe, b.message)] else []
  }

  /** An iteration throws only for an ORDER entry whose credentials cannot
      be read, or whose signature throws. */
  lemma EntryFault(ex: Exchange, id: string, sub: Subscription, k: nat)
    ensures var e := ReplayEntry(ex, id, sub, k);
      && (e.fault.None? && IsOrderChannel(ex.markers, sub.channelName) ==> Credentials(sub.args).Success?)
      && ((IsOrderChannel(ex.markers, sub.channelName) && Credentials(sub.args).Success?
           && ex.signature(Credentials(sub.args).value.1, ex.nonce(k)).Some?) ==> e.fault.None?)
  {
  }

  /** A completed iteration sends its authentication part, then its replay
      part. */
  lemma EntrySplit(ex: Exchange, id: string, sub: Subscription, k: nat) returns (a: seq<Outgoing>)
    ensures var e := ReplayEntry(ex, id, sub, k);
      e.fault.None? ==>
        && e.sends == a + ReplaySend(ex, id, sub)
        && |a| <= 1
        && (forall j :: 0 <= j < |a| ==> a[j].intent == Auth && a[j].channelId == id)
        && (|a| == 1 ==> IsOrderChannel(ex.markers, sub.channelName) && IsAuthFor(ex, sub, a[0].message))
        && (BuildsAlways(ex) ==> (|a| == 1 <==> IsOrderChannel(ex.markers, sub.channelName)))
  {
    a := [];
    var e := ReplayEntry(ex, id, sub, k);
    if e.fault.None? && IsOrderChannel(ex.markers, sub.channelName) {
      var c := Credentials(sub.args).value;
      var n := ex.nonce(k);
      var auth := AuthSends(ex, id, c.0, c.1, n);
      assert e.sends == auth.value + ReplaySend(ex, id, sub);
      a := auth.value;
      if |a| == 1 {
        assert ex.signature(c.1, n).Some? &&
               AuthBuild(ex, c.0, ex.signature(c.1, n).value, n) == Built(a[0].message);
      }
    }
  }


  /** What one iteration sends: at most an authentication send followed by
      the replayed subscribe, each built from the entry; an exception only
      for an ORDER entry with short or null credentials or a failing
      signature; and the expected number of each kind of send. */
  lemma EntryFacts(ex: Exchange, id: string, sub: Subscription, k: nat)
    ensures var e := ReplayEntry(ex, id, sub, k);
      && (e.fault.None? && IsOrderChannel(ex.markers, sub.channelName) ==> Credentials(sub.args).Success?)
      && ((IsOrderChannel(ex.markers, sub.channelName) && Credentials(sub.args).Success?
           && ex.signature(Credentials(sub.args).value.1, ex.nonce(k)).Some?) ==> e.fault.None?)
      && |e.sends| <= 2
      && (forall j :: 0 <= j < |e.sends| && e.sends[j].intent == Auth ==> j == 0)
      && (forall j :: 0 <= j < |e.sends| && e.sends[j].intent == Resubscribe ==> j == |e.sends| - 1)
      && (e.fault.None? ==> CountSends(e.sends, id, Resubscribe) == ExpectedReplays(ex, sub))
      && CountSends(e.sends, id, Auth) <= 1
      && (e.fault.None? && BuildsAlways(ex) ==>
            CountSends(e.sends, id, Auth) == if IsOrderChannel(ex.markers, sub.channelName) then 1 else 0)
      && (forall j :: 0 <= j < |e.sends| ==> Faithful(ex, map[id := sub], e.sends[j]))
  {
    EntryFault(ex, id, sub, k);
    var e := ReplayEntry(ex, id, sub, k);
    if e.fault.None? {
      var a := EntrySplit(ex, id, sub, k);
      var tail := ReplaySend(ex, id, sub);
      CountSendsAppend(a, tail, id, Resubscribe);
      CountSendsAppend(a, tail, id, Auth);
      forall j | 0 <= j < |e.sends| ensures Faithful(ex, map[id := sub], e.sends[j]) {
        if j < |a| {
          assert e.sends[j] == a[j];
        } else {
          assert e.sends[j] == tail[j - |a|];
        }
      }
    }
  }

  /** No id occurs twice in `order`. */
  predicate Distinct(order: seq<string>)
  {
    order == [] || (order[0] !in order[1..] && Distinct(order[1..]))
  }

  /** `order` lists registry ids, each once. */
  ghost predicate ListsOnce(order: seq<string>, channels: map<string, Subscription>)
  {
    (forall i :: 0 <= i < |order| ==> order[i] in channels) && Distinct(order)
  }

  /** `order` is an iteration order of the registry's key set. */
  ghost predicate Enumerates(order: seq<string>, channels: map<string, Subscription>)
  {
    ListsOnce(order, channels) && forall id :: id in channels ==> id in order
  }

  /** The handling of one entry as a value: id, subscription and nonce index
      to what the iteration does. */
  type Iteration = (string, Subscription, nat) -> EntryReplay

  /** Each iteration sends only on behalf of its own entry. */
  ghost predicate OwnSends(step: Iteration)
  {
    forall id, sub, n, j :: 0 <= j < |step(id, sub, n).sends| ==> step(id, sub, n).sends[j].channelId == id
  }

  /** An iteration that throws has sent nothing. */
  ghost predicate SilentFault(step: Iteration)
  {
    forall id, sub, n :: step(id, sub, n).fault.Some? ==> step(id, sub, n).sends == []
  }

  /** The loop of `resubscribeChannels` over the ids in `order`, `step`
      handling each entry and the first one drawing nonce `k`. An exception
      escaping an iteration ends the loop. */
  function Loop(step: Iteration, channels: map<string, Subscription>, order: seq<string>, k: nat): (r: ReplayLog)
    requires forall i :: 0 <= i < |order| ==> order[i] in channels
    ensures OwnSends(step) ==> forall j :: 0 <= j < |r.sends| ==> r.sends[j].channelId in order
    decreases |order|
  {
    if order == [] then ReplayLog([], None, 0)
    else
      var e := step(order[0], channels[order[0]], k);
      if e.fault.Some? then ReplayLog(e.sends, e.fault, e.noncesUsed)
      else
        var rest := Loop(step, channels, order[1..], k + e.noncesUsed);
        ReplayLog(e.sends + rest.sends, rest.fault, e.noncesUsed + rest.noncesUsed)
  }

  function EntryOf(ex: Exchange): Iteration
  {
    (id: string, sub: Subscription, n: nat) => ReplayEntry(ex, id, sub, n)
  }

  /** The replay `resubscribeChannels` performs, its first entry drawing
      nonce `k`. */
  function Replay(ex: Exchange, channels: map<string, Subscription>, order: seq<string>, k: nat): ReplayLog
    requires forall i :: 0 <= i < |order| ==> order[i] in channels
  {
    Loop(EntryOf(ex), channels, order, k)
  }

  lemma EntryOfBehaves(ex: Exchange)
    ensures OwnSends(EntryOf(ex)) && SilentFault(EntryOf(ex))
  {
  }

  /** When the first iteration completes, the loop is its sends followed by
      the loop over the remaining ids. */
  lemma UnfoldLoop(step: Iteration, channels: map<string, Subscription>, order: seq<string>, k: nat)
    requires forall i :: 0 <= i < |order| ==> order[i] in channels
    requires order != [] && step(order[0], channels[order[0]], k).fault.None?
    ensures var e := step(order[0], channels[order[0]], k);
      var rest := Loop(step, channels, order[1..], k + e.noncesUsed);
      Loop(step, channels, order, k) == ReplayLog(e.sends + rest.sends, rest.fault, e.noncesUsed + rest.noncesUsed)
  {
  }

  /** When the first iteration throws, the loop is that iteration alone. */
  lemma LoopStopsAtFault(step: Iteration, channels: map<string, Subscription>, order: seq<string>, k: nat)
    requires forall i :: 0 <= i < |order| ==> order[i] in channels
    requires SilentFault(step) && order != [] && step(order[0], channels[order[0]], k).fault.Some?
    ensures Loop(step, channels, order, k).sends == []
  {
    assert step(order[0], channels[order[0]], k).sends == [];
  }

  /** Counting over the sends of one entry followed by sends for other ids. */
  lemma CountSplit(a: seq<Outgoing>, b: seq<Outgoing>, x: string, others: seq<string>, y: string, intent: Intent)
    requires forall j :: 0 <= j < |a| ==> a[j].channelId == x
    requires forall j :: 0 <= j < |b| ==> b[j].channelId in others
    requires x !in others
    ensures CountSends(a + b, y, intent) ==
              if y == x then CountSends(a, x, intent) else CountSends(b, y, intent)
  {
    CountSendsAppend(a, b, y, intent);
    if y == x {
      CountSendsAbsent(b, x, intent);
    } else {
      CountSendsAbsent(a, y, intent);
    }
  }

  lemma ListsOnceTail(order: seq<string>, channels: map<string, Subscription>)
    requires ListsOnce(order, channels) && order != []
    ensures ListsOnce(order[1..], channels) && order[0] !in order[1..]
  {
    forall i | 0 <= i < |order[1..]| ensures order[1..][i] in channels {
      assert order[1..][i] == order[i + 1];
    }
  }

  /** The count for the `i`-th listed entry of a completed loop is what its
      own iteration sent. */
  lemma {:induction false} LoopCountOf(step: Iteration, channels: map<string, Subscription>, order: seq<string>, k: nat,
                                       intent: Intent, expected: Subscription -> nat, i: nat)
    requires ListsOnce(order, channels) && OwnSends(step) && i < |order|
    requires forall id, sub, n :: step(id, sub, n).fault.None? ==>
               CountSends(step(id, sub, n).sends, id, intent) == expected(sub)
    ensures var r := Loop(step, channels, order, k);
      r.fault.None? ==> CountSends(r.sends, order[i], intent) == expected(channels[order[i]])
    decreases |order|
  {
    var e := step(order[0], channels[order[0]], k);
    if e.fault.None? {
      var rest := Loop(step, channels, order[1..], k + e.noncesUsed);
      UnfoldLoop(step, channels, order, k);
      ListsOnceTail(order, channels);
      CountSplit(e.sends, rest.sends, order[0], order[1..], order[i], intent);
      if i > 0 {
        LoopCountOf(step, channels, order[1..], k + e.noncesUsed, intent, expected, i - 1);
        assert order[1..][i - 1] == order[i];
      }
    }
  }

  /** If every completed iteration sends `expected(sub)` messages of an
      intent for its own entry, a completed loop sends exactly that many for
      every listed entry. */
  lemma LoopCounts(step: Iteration, channels: map<string, Subscription>, order: seq<string>, k: nat,
                   intent: Intent, expected: Subscription -> nat)
    requires ListsOnce(order, channels) && OwnSends(step)
    requires forall id, sub, n :: step(id, sub, n).fault.None? ==>
               CountSends(step(id, sub, n).sends, id, intent) == expected(sub)
    ensures var r := Loop(step, channels, order, k);
      r.fault.None? ==> forall i :: 0 <= i < |order| ==>
        CountSends(r.sends, order[i], intent) == expected(channels[order[i]])
  {
    forall i | 0 <= i < |order|
      ensures var r := Loop(step, channels, order, k);
        r.fault.None? ==> CountSends(r.sends, order[i], intent) == expected(channels[order[i]])
    {
      LoopCountOf(step, channels, order, k, intent, expected, i);
    }
  }

  /** The count for the `i`-th listed entry never exceeds what any single
      iteration may send. */
  lemma {:induction false} LoopCountAtMostOf(step: Iteration, channels: map<string, Subscription>, order: seq<string>, k: nat,
                                             intent: Intent, bound: nat, i: nat)
    requires ListsOnce(order, channels) && OwnSends(step) && SilentFault(step) && i < |order|
    requires forall id, sub, n :: CountSends(step(id, sub, n).sends, id, intent) <= bound
    ensures CountSends(Loop(step, channels, order, k).sends, order[i], intent) <= bound
    decreases |order|
  {
    var e := step(order[0], channels[order[0]], k);
    if e.fault.None? {
      var rest := Loop(step, channels, order[1..], k + e.noncesUsed);
      UnfoldLoop(step, channels, order, k);
      ListsOnceTail(order, channels);
      CountSplit(e.sends, rest.sends, order[0], order[1..], order[i], intent);
      if i > 0 {
        LoopCountAtMostOf(step, channels, order[1..], k + e.noncesUsed, intent, bound, i - 1);
        assert order[1..][i - 1] == order[i];
      } else {
        assert CountSends(e.sends, order[0], intent) <= bound;
      }
    } else {
      LoopStopsAtFault(step, channels, order, k);
    }
  }

  /** If no iteration sends more than `bound` messages of an intent for its
      own entry, neither does the loop for any listed entry. */
  lemma LoopCountsAtMost(step: Iteration, channels: map<string, Subscription>, order: seq<string>, k: nat,
                         intent: Intent, bound: nat)
    requires ListsOnce(order, channels) && OwnSends(step) && SilentFault(step)
    requires forall id, sub, n :: CountSends(step(id, sub, n).sends, id, intent) <= bound
    ensures var r := Loop(step, channels, order, k);
      forall i :: 0 <= i < |order| ==> CountSends(r.sends, order[i], intent) <= bound
  {
    forall i | 0 <= i < |order|
      ensures CountSends(Loop(step, channels, order, k).sends, order[i], intent) <= bound
    {
      LoopCountAtMostOf(step, channels, order, k, intent, bound, i);
    }
  }

  /** If every iteration sends its authentication first, so does the loop. */
  lemma {:induction false} LoopAuthFirst(step: Iteration, channels: map<string, Subscription>, order: seq<string>, k: nat)
    requires ListsOnce(order, channels) && OwnSends(step)
    requires forall id, sub, n :: AuthFirst(step(id, sub, n).sends)
    ensures AuthFirst(Loop(step, channels, order, k).sends)
    decreases |order|
  {
    if order != [] {
      var e := step(order[0], channels[order[0]], k);
      if e.fault.None? {
        var rest := Loop(step, channels, order[1..], k + e.noncesUsed);
        UnfoldLoop(step, channels, order, k);
        LoopAuthFirst(step, channels, order[1..], k + e.noncesUsed);
        var all := e.sends + rest.sends;
        forall a, b | 0 <= a < |all| && 0 <= b < |all| && all[a].intent == Auth &&
                      all[b].intent == Resubscribe && all[a].channelId == all[b].channelId
          ensures b == a + 1
        {
          if a >= |e.sends| && b >= |e.sends| {
            assert rest.sends[a - |e.sends|] == all[a] && rest.sends[b - |e.sends|] == all[b];
          } else if a < |e.sends| && b < |e.sends| {
            assert e.sends[a] == all[a] && e.sends[b] == all[b];
          } else {
            assert false;
          }
        }
      }
    }
  }

  /** The position in `order` of the entry whose iteration ends the loop
      with an exception, or `|order|` when the loop runs to the end. */
  function StopAt(step: Iteration, channels: map<string, Subscription>, order: seq<string>, k: nat): (i: nat)
    requires forall i :: 0 <= i < |order| ==> order[i] in channels
    ensures i <= |order|
    decreases |order|
  {
    if order == [] then 0
    else
      var e := step(order[0], channels[order[0]], k);
      if e.fault.Some? then 0 else 1 + StopAt(step, channels, order[1..], k + e.noncesUsed)
  }

  /** If only entries satisfying `culprit` can throw, an exception escaping
      the loop comes from such an entry, and nothing is sent for that entry
      or the entries after it. */
  lemma {:induction false} LoopAbort(step: Iteration, channels: map<string, Subscription>, order: seq<string>, k: nat,
                                     culprit: Subscription -> bool)
    requires forall i :: 0 <= i < |order| ==> order[i] in channels
    requires OwnSends(step) && SilentFault(step)
    requires forall id, sub, n :: step(id, sub, n).fault.Some? ==> culprit(sub)
    ensures var r := Loop(step, channels, order, k);
      var i := StopAt(step, channels, order, k);
      && (r.fault.Some? <==> i < |order|)
      && (i < |order| ==> culprit(channels[order[i]]))
      && (forall j :: 0 <= j < |r.sends| ==> r.sends[j].channelId in order[..i])
    decreases |order|
  {
    if order != [] {
      var e := step(order[0], channels[order[0]], k);
      if e.fault.None? {
        var r := Loop(step, channels, order, k);
        var rest := Loop(step, channels, order[1..], k + e.noncesUsed);
        var i' := StopAt(step, channels, order[1..], k + e.noncesUsed);
        UnfoldLoop(step, channels, order, k);
        forall i | 0 <= i < |order[1..]| ensures order[1..][i] in channels {
          assert order[1..][i] == order[i + 1];
        }
        LoopAbort(step, channels, order[1..], k + e.noncesUsed, culprit);
        assert order[..i' + 1] == [order[0]] + order[1..][..i'];
        forall j | 0 <= j < |r.sends| ensures r.sends[j].channelId in order[..i' + 1] {
          if j >= |e.sends| {
            assert r.sends[j] == rest.sends[j - |e.sends|];
          } else {
            assert r.sends[j] == e.sends[j];
          }
        }
        if i' < |order[1..]| {
          assert order[1..][i'] == order[i' + 1];
        }
      }
    }
  }

  /** If no listed entry's iteration throws, the loop runs to the end. */
  lemma {:induction false} LoopCompletes(step: Iteration, channels: map<string, Subscription>, order: seq<string>, k: nat)
    requires forall i :: 0 <= i < |order| ==> order[i] in channels
    requires forall i, n :: 0 <= i < |order| ==> step(order[i], channels[order[i]], n).fault.None?
    ensures Loop(step, channels, order, k).fault.None?
    decreases |order|
  {
    if order != [] {
      var e := step(order[0], channels[order[0]], k);
      assert e.fault.None?;
      forall i, n | 0 <= i < |order[1..]|
        ensures step(order[1..][i], channels[order[1..][i]], n).fault.None?
      {
        assert order[1..][i] == order[i + 1];
      }
      LoopCompletes(step, channels, order[1..], k + e.noncesUsed);
    }
  }

  /** The sends of one iteration carry what its entry prescribes. */
  ghost predicate FaithfulSends(ex: Exchange, id: string, sub: Subscription, sends: seq<Outgoing>)
  {
    forall j :: 0 <= j < |sends| ==> Faithful(ex, map[id := sub], sends[j])
  }

  /** If every iteration's sends are faithful to its entry, every send of the
      loop is faithful to the registry. */
  lemma {:induction false} LoopFaithful(ex: Exchange, step: Iteration, channels: map<string, Subscription>, order: seq<string>, k: nat)
    requires forall i :: 0 <= i < |order| ==> order[i] in channels
    requires forall id, sub, n :: FaithfulSends(ex, id, sub, step(id, sub, n).sends)
    ensures var r := Loop(step, channels, order, k);
      forall j :: 0 <= j < |r.sends| ==> Faithful(ex, channels, r.sends[j])
    decreases |order|
  {
    if order != [] {
      var id := order[0];
      var e := step(id, channels[id], k);
      assert FaithfulSends(ex, id, channels[id], e.sends);
      forall j | 0 <= j < |e.sends| ensures Faithful(ex, channels, e.sends[j]) {
        assert Faithful(ex, map[id := channels[id]], e.sends[j]);
      }
      if e.fault.None? {
        var rest := Loop(step, channels, order[1..], k + e.noncesUsed);
        UnfoldLoop(step, channels, order, k);
        LoopFaithful(ex, step, channels, order[1..], k + e.noncesUsed);
        var all := e.sends + rest.sends;
        forall j | 0 <= j < |all| ensures Faithful(ex, channels, all[j]) {
          if j >= |e.sends| {
            assert all[j] == rest.sends[j - |e.sends|];
          } else {
            assert all[j] == e.sends[j];
          }
        }
      }
    }
  }

  /** After a replay that runs to the end, every listed entry has exactly the
      replayed subscribes it should (one, unless it is a sign or ping channel
      or its message cannot be built) whatever happened to the other entries,
      and at most one authentication send; when builders never fail, every
      ORDER entry has its own authentication send, even when several entries
      share one credential pair. */
  lemma ReplayCounts(ex: Exchange, channels: map<string, Subscription>, order: seq<string>, k: nat)
    requires ListsOnce(order, channels)
    ensures var r := Replay(ex, channels, order, k);
      r.fault.None? ==> forall i :: 0 <= i < |order| ==>
        CountSends(r.sends, order[i], Resubscribe) == ExpectedReplays(ex, channels[order[i]])
    ensures var r := Replay(ex, channels, order, k);
      forall i :: 0 <= i < |order| ==> CountSends(r.sends, order[i], Auth) <= 1
    ensures var r := Replay(ex, channels, order, k);
      r.fault.None? && BuildsAlways(ex) ==> forall i :: 0 <= i < |order| ==>
        CountSends(r.sends, order[i], Auth) == if IsOrderChannel(ex.markers, channels[order[i]].channelName) then 1 else 0
  {
    var step := EntryOf(ex);
    EntryOfBehaves(ex);
    forall id, sub, n ensures step(id, sub, n).fault.None? ==>
                                CountSends(step(id, sub, n).sends, id, Resubscribe) == ExpectedReplays(ex, sub)
    {
      EntryFacts(ex, id, sub, n);
    }
    forall id, sub, n ensures CountSends(step(id, sub, n).sends, id, Auth) <= 1 {
      EntryFacts(ex, id, sub, n);
    }
    forall id, sub, n ensures step(id, sub, n).fault.None? && BuildsAlways(ex) ==>
                                CountSends(step(id, sub, n).sends, id, Auth) ==
                                  if IsOrderChannel(ex.markers, sub.channelName) then 1 else 0
    {
      EntryFacts(ex, id, sub, n);
    }
    LoopCounts(step, channels, order, k, Resubscribe, (sub: Subscription) => ExpectedReplays(ex, sub));
    LoopCountsAtMost(step, channels, order, k, Auth, 1);
    if BuildsAlways(ex) {
      LoopCounts(step, channels, order, k, Auth,
                 (sub: Subscription) => if IsOrderChannel(ex.markers, sub.channelName) then 1 else 0);
    }
  }

  /** The authentication send of an entry immediately precedes its replayed
      subscribe. */
  lemma ReplayAuthFirst(ex: Exchange, channels: map<string, Subscription>, order: seq<string>, k: nat)
    requires ListsOnce(order, channels)
    ensures AuthFirst(Replay(ex, channels, order, k).sends)
  {
    EntryOfBehaves(ex);
    forall id, sub, n ensures AuthFirst(EntryOf(ex)(id, sub, n).sends) {
      EntryFacts(ex, id, sub, n);
    }
    LoopAuthFirst(EntryOf(ex), channels, order, k);
  }

  /** An exception escaping the replay comes from an ORDER entry, and no
      entry after it is replayed or authenticated. */
  lemma ReplayAbortStopsRest(ex: Exchange, channels: map<string, Subscription>, order: seq<string>, k: nat)
    requires ListsOnce(order, channels)
    ensures var r := Replay(ex, channels, order, k);
      r.fault.Some? ==> exists i :: 0 <= i < |order| &&
                          IsOrderChannel(ex.markers, channels[order[i]].channelName) &&
                          forall j :: 0 <= j < |r.sends| ==> r.sends[j].channelId in order[..i]
  {
    EntryOfBehaves(ex);
    var culprit := (sub: Subscription) => IsOrderChannel(ex.markers, sub.channelName);
    LoopAbort(EntryOf(ex), channels, order, k, culprit);
    var r := Replay(ex, channels, order, k);
    var i := StopAt(EntryOf(ex), channels, order, k);
    if r.fault.Some? {
      assert culprit(channels[order[i]]);
    }
  }

  /** No exception escapes when every ORDER entry has two non-null
      credentials and the signature never throws: builder failures alone
      never stop the replay. */
  lemma ReplayCompletes(ex: Exchange, channels: map<string, Subscription>, order: seq<string>, k: nat)
    requires forall i :: 0 <= i < |order| ==> order[i] in channels
    requires forall i :: 0 <= i < |order| && IsOrderChannel(ex.markers, channels[order[i]].channelName) ==>
               Credentials(channels[order[i]].args).Success?
    requires SignsAlways(ex)
    ensures Replay(ex, channels, order, k).fault.None?
  {
    forall i, n | 0 <= i < |order| ensures EntryOf(ex)(order[i], channels[order[i]], n).fault.None? {
      var sub := channels[order[i]];
      EntryFacts(ex, order[i], sub, n);
      if IsOrderChannel(ex.markers, sub.channelName) {
        var secret := Credentials(sub.args).value.1;
        assert ex.signature(secret, ex.nonce(n)).Some?;
      }
    }
    LoopCompletes(EntryOf(ex), channels, order, k);
  }

  /** Every send of the replay carries what its registry entry prescribes:
      a replayed subscribe is built from the entry's stored name and
      arguments, an authentication send from the entry's own credentials. */
  lemma ReplayFaithful(ex: Exchange, channels: map<string, Subscription>, order: seq<string>, k: nat)
    requires forall i :: 0 <= i < |order| ==> order[i] in channels
    ensures var r := Replay(ex, channels, order, k);
      forall j :: 0 <= j < |r.sends| ==> Faithful(ex, channels, r.sends[j])
  {
    forall id, sub, n ensures FaithfulSends(ex, id, sub, EntryOf(ex)(id, sub, n).sends) {
      EntryFacts(ex, id, sub, n);
    }
    LoopFaithful(ex, EntryOf(ex), channels, order, k);
    assert Replay(ex, channels, order, k) == Loop(EntryOf(ex), channels, order, k);
  }

  /** A send with a given id and intent exists when the count is positive. */
  lemma {:induction false} CountPositive(sends: seq<Outgoing>, id: string, intent: Intent)
    requires CountSends(sends, id, intent) > 0
    ensures exists j :: 0 <= j < |sends| && sends[j].channelId == id && sends[j].intent == intent
    decreases |sends|
  {
    if !(sends[0].channelId == id && sends[0].intent == intent) {
      CountPositive(sends[1..], id, intent);
      var j :| 0 <= j < |sends[1..]| && sends[1..][j].channelId == id && sends[1..][j].intent == intent;
      assert sends[j + 1] == sends[1..][j];
    }
  }

  /** The messages of the sends, in order. */
  function Messages(sends: seq<Outgoing>): (ms: seq<Option<string>>)
    ensures |ms| == |sends|
    ensures forall j :: 0 <= j < |ms| ==> ms[j] == sends[j].message
  {
    seq(|sends|, j requires 0 <= j < |sends| => sends[j].message)
  }

  /** Number of authentication sends. */
  function Authentications(sends: seq<Outgoing>): nat
  {
    if sends == [] then 0
    else (if sends[0].intent == Auth then 1 else 0) + Authentications(sends[1..])
  }

  lemma {:induction false} AuthenticationsAppend(a: seq<Outgoing>, b: seq<Outgoing>)
    ensures Authentications(a + b) == Authentications(a) + Authentications(b)
    decreases |a|
  {
    if a == [] {
      assert a + b == b;
    } else {
      assert (a + b)[1..] == a[1..] + b;
      AuthenticationsAppend(a[1..], b);
    }
  }

  /** Every authentication send of an iteration is made with a nonce that
      iteration drew. */
  ghost predicate DrawsPerAuth(step: Iteration)
  {
    forall id, sub, n :: Authentications(step(id, sub, n).sends) <= step(id, sub, n).noncesUsed
  }

  /** An iteration of the replay draws a nonce for its authentication send:
      the nonce comes from `getNonce` before the signature and the send. */
  lemma EntryDrawsNonce(ex: Exchange, id: string, sub: Subscription, k: nat)
    ensures Authentications(ReplayEntry(ex, id, sub, k).sends) <= ReplayEntry(ex, id, sub, k).noncesUsed
  {
    var e := ReplayEntry(ex, id, sub, k);
    if e.fault.None? {
      var a := EntrySplit(ex, id, sub, k);
      var tail := ReplaySend(ex, id, sub);
      AuthenticationsAppend(a, tail);
      assert Authentications(tail) == 0 by {
        if tail != [] {
          assert tail[1..] == [];
        }
      }
      if a != [] {
        assert a[1..] == [];
        assert Credentials(sub.args).Success?;
      }
    }
  }

  /** A loop over iterations that each draw a nonce per authentication send
      draws at least as many nonces as it sends authentications. */
  lemma {:induction false} LoopDrawsPerAuth(step: Iteration, channels: map<string, Subscription>, order: seq<string>, k: nat)
    requires forall i :: 0 <= i < |order| ==> order[i] in channels
    requires DrawsPerAuth(step)
    ensures Authentications(Loop(step, channels, order, k).sends) <= Loop(step, channels, order, k).noncesUsed
    decreases |order|
  {
    if order != [] {
      var e := step(order[0], channels[order[0]], k);
      if e.fault.None? {
        var rest := Loop(step, channels, order[1..], k + e.noncesUsed);
        LoopDrawsPerAuth(step, channels, order[1..], k + e.noncesUsed);
        AuthenticationsAppend(e.sends, rest.sends);
      }
    }
  }

  /** Each authentication send of a replay uses a nonce of its own, so the
      replay draws at least as many nonces as it authenticates entries. */
  lemma ReplayDrawsNonces(ex: Exchange, channels: map<string, Subscription>, order: seq<string>, k: nat)
    requires forall i :: 0 <= i < |order| ==> order[i] in channels
    ensures Authentications(Replay(ex, channels, order, k).sends) <= Replay(ex, channels, order, k).noncesUsed
  {
    forall id, sub, n ensures Authentications(EntryOf(ex)(id, sub, n).sends) <= EntryOf(ex)(id, sub, n).noncesUsed {
      EntryDrawsNonce(ex, id, sub, n);
    }
    LoopDrawsPerAuth(EntryOf(ex), channels, order, k);
  }

  /** `resubscribeChannels` over the registry of `s`, enumerated in `order`:
      the registry and the link are left as they are, the nonce counter
      moves past every nonce the replay drew, every send goes through
      `sendMessage`, and an exception escaping the loop is thrown to the
      caller. */
  function ResubscribeChannels(ex: Exchange, s: State, order: seq<string>): (st: Step)
    requires Enumerates(order, s.channels)
    ensures st.state == s.(noncesDrawn := st.state.noncesDrawn)
    ensures st.state.noncesDrawn >= s.noncesDrawn + Authentications(Replay(ex, s.channels, order, s.noncesDrawn).sends)
    ensures forall j :: 0 <= j < |st.actions| ==> st.actions[j].TextFrame?
    ensures !Usable(s.link) ==> st.actions == []
    ensures Usable(s.link) ==>
              FramesOf(st.actions) == Present(Messages(Replay(ex, s.channels, order, s.noncesDrawn).sends))
    ensures st.thrown.Some? ==>
              exists id :: id in s.channels && IsOrderChannel(ex.markers, s.channels[id].channelName)
  {
    var log := Replay(ex, s.channels, order, s.noncesDrawn);
    SendAllFrames(s.link, Messages(log.sends));
    ReplayAbortStopsRest(ex, s.channels, order, s.noncesDrawn);
    ReplayDrawsNonces(ex, s.channels, order, s.noncesDrawn);
    Step(s.(noncesDrawn := s.noncesDrawn + log.noncesUsed), SendAll(s.link, Messages(log.sends)), log.fault)
  }

  /** Over a usable link a replay that runs to the end puts the stored
      subscribe message of every replayed entry back on the wire. */
  lemma ResubscribeReplaysEveryEntry(ex: Exchange, s: State, order: seq<string>, id: string, text: string)
    requires Enumerates(order, s.channels) && Usable(s.link)
    requires id in s.channels && IsReplayed(ex.markers, s.channels[id].channelName)
    requires Yields(ex.subscribeMessage(s.channels[id].channelName, s.channels[id].args), text)
    ensures var st := ResubscribeChannels(ex, s, order);
      st.thrown.None? ==> text in FramesOf(st.actions)
  {
    var log := Replay(ex, s.channels, order, s.noncesDrawn);
    if log.fault.None? {
      var i :| 0 <= i < |order| && order[i] == id;
      ReplayCounts(ex, s.channels, order, s.noncesDrawn);
      CountPositive(log.sends, id, Resubscribe);
      var j :| 0 <= j < |log.sends| && log.sends[j].channelId == id && log.sends[j].intent == Resubscribe;
      ReplayFaithful(ex, s.channels, order, s.noncesDrawn);
      assert Faithful(ex, s.channels, log.sends[j]);
      PresentHas(Messages(log.sends), j);
      SendAllFrames(s.link, Messages(log.sends));
    }
  }

  /** An authentication send is only ever made for an ORDER entry, on that
      entry's own credentials, and each ORDER entry is authenticated at most
      once per replay. */
  lemma ResubscribeAuthOnlyForOrders(ex: Exchange, s: State, order: seq<string>, j: nat)
    requires Enumerates(order, s.channels)
    requires j < |Replay(ex, s.channels, order, s.noncesDrawn).sends|
    requires Replay(ex, s.channels, order, s.noncesDrawn).sends[j].intent == Auth
    ensures var o := Replay(ex, s.channels, order, s.noncesDrawn).sends[j];
      && o.channelId in s.channels
      && IsOrderChannel(ex.markers, s.channels[o.channelId].channelName)
      && IsAuthFor(ex, s.channels[o.channelId], o.message)
      && CountSends(Replay(ex, s.channels, order, s.noncesDrawn).sends, o.channelId, Auth) == 1
  {
    var r := Replay(ex, s.channels, order, s.noncesDrawn);
    ReplayFaithful(ex, s.channels, order, s.noncesDrawn);
    assert Faithful(ex, s.channels, r.sends[j]);
    ReplayCounts(ex, s.channels, order, s.noncesDrawn);
    CountAtLeastOne(r.sends, j, Auth);
    var i :| 0 <= i < |order| && order[i] == r.sends[j].channelId;
  }

  /** A send is counted. */
  lemma {:induction false} CountAtLeastOne(sends: seq<Outgoing>, j: nat, intent: Intent)
    requires j < |sends| && sends[j].intent == intent
    ensures CountSends(sends, sends[j].channelId, intent) >= 1
    decreases j
  {
    if j > 0 {
      CountAtLeastOne(sends[1..], j - 1, intent);
      assert sends[1..][j - 1] == sends[j];
    }
  }
}

=== FILE: routing.dfy ===
/** Routing of inbound messages and errors to the subscriber registered for
    their channel: `getChannel`, `handleMessage`/`handleChannelMessage` and
    `handleError`/`handleChannelError`, as written and with the intended
    checks for an unregistered channel. */
module Routing {
  import opened Wrappers
  import opened Text
  import opened Streaming

  /** What the exchange's `getChannelNameFromMessage` yields for a message:
      a channel name (possibly null), or an `IOException`. */
  datatype Parse = Named(name: Option<string>) | ParseFailed

  /** Where an inbound item goes: to the emitter of a registered channel, it
      is dropped, or an exception escapes the handler. */
  datatype Routed<X> = Deliver(channelId: string, item: X) | Dropped | Raise(fault: Fault)

  /** `getChannel`: the parsed name, or the empty string when parsing
      fails. */
  function GetChannel(p: Parse): (c: Option<string>)
    ensures p.ParseFailed? ==> c == Some("")
    ensures p.Named? ==> c == p.name
  {
    match p
    case Named(n) => n
    case ParseFailed => Some("")
  }

  /** `handleChannelMessage` as written: the registry lookup is dereferenced
      without a check, so a null or unregistered channel raises a
      `NullPointerException` instead of being dropped. */
  function HandleChannelMessage<M>(channels: map<string, Subscription>, channel: Option<string>, m: M): (r: Routed<M>)
    ensures r.Deliver? <==> channel.Some? && channel.value in channels
    ensures r.Deliver? ==> r == Deliver(channel.value, m)
    ensures !r.Deliver? ==> r == Raise(NullPointer)
  {
    if channel.Some? && channel.value in channels then Deliver(channel.value, m) else Raise(NullPointer)
  }

  /** `handleMessage`: the message goes to the channel `getChannel` names.
      It is delivered iff that channel is registered ("" for a message that
      cannot be parsed), and raises otherwise. */
  function HandleMessage<M>(channels: map<string, Subscription>, p: Parse, m: M): (r: Routed<M>)
    ensures r.Deliver? <==> (p.ParseFailed? && "" in channels) || (p.Named? && p.name.Some? && p.name.value in channels)
    ensures r.Deliver? ==> r.item == m && r.channelId in channels && r.channelId == GetChannel(p).value
    ensures !r.Deliver? ==> r == Raise(NullPointer)
  {
    HandleChannelMessage(channels, GetChannel(p), m)
  }

  /** A message whose channel cannot be parsed is routed to the empty channel
      name; unless something is registered under it, the handler raises. */
  lemma UnparseableMessageRaises<M>(channels: map<string, Subscription>, m: M)
    ensures "" !in channels ==> HandleMessage(channels, ParseFailed, m) == Raise(NullPointer)
    ensures "" in channels ==> HandleMessage(channels, ParseFailed, m) == Deliver("", m)
  {
  }

  /** A concrete instance: a message for a channel nobody subscribed to
      escapes as a `NullPointerException`. */
  lemma UnregisteredMessageRaises()
    ensures HandleMessage(map[], Named(Some("spot.trades")), "update") == Raise(NullPointer)
  {
  }

  /** Routing with the intended check, for messages and errors alike: an
      item for a null or unregistered channel is logged and dropped. */
  function RouteChecked<X>(channels: map<string, Subscription>, channel: Option<string>, x: X): (r: Routed<X>)
    ensures !r.Raise?
    ensures r.Deliver? <==> channel.Some? && channel.value in channels
    ensures r.Deliver? ==> r == Deliver(channel.value, x)
  {
    if channel.Some? && channel.value in channels then Deliver(channel.value, x) else Dropped
  }

  /** `handleChannelMessage` with the key check, which is `RouteChecked`,
      delivers exactly where the code delivers and drops exactly where the
      code raises. */
  lemma CheckedMessageAgrees<M>(channels: map<string, Subscription>, channel: Option<string>, m: M)
    ensures var written := HandleChannelMessage(channels, channel, m);
      var checked := RouteChecked(channels, channel, m);
      && (written.Deliver? ==> checked == written)
      && (written.Raise? <==> checked == Dropped)
  {
  }

  /** `handleChannelError` as written. Its guard asks whether the channel
      name contains itself, which it always does (a null name raises there),
      so an unregistered channel reaches the unchecked lookup. */
  function HandleChannelError<E>(channels: map<string, Subscription>, channel: Option<string>, t: E): (r: Routed<E>)
    ensures r != Dropped
    ensures r.Deliver? <==> channel.Some? && channel.value in channels
    ensures r.Deliver? ==> r == Deliver(channel.value, t)
    ensures !r.Deliver? ==> r == Raise(NullPointer)
  {
    match channel
    case None => Raise(NullPointer)
    case Some(c) =>
      ContainsSelf(c);
      if !Contains(c, c) then Dropped
      else if c in channels then Deliver(c, t)
      else Raise(NullPointer)
  }

  /** `handleError`: the error goes to the channel `getChannel` names. It is
      delivered iff that channel is registered, and raises otherwise. */
  function HandleError<E>(channels: map<string, Subscription>, p: Parse, t: E): (r: Routed<E>)
    ensures r.Deliver? <==> (p.ParseFailed? && "" in channels) || (p.Named? && p.name.Some? && p.name.value in channels)
    ensures r.Deliver? ==> r.item == t && r.channelId in channels && r.channelId == GetChannel(p).value
    ensures !r.Deliver? ==> r == Raise(NullPointer)
  {
    HandleChannelError(channels, GetChannel(p), t)
  }

  /** The guard of `handleChannelError` never fires: the guarded error
      handler routes exactly as the message handler, which has no guard. */
  lemma ErrorGuardNeverFires<E>(channels: map<string, Subscription>, channel: Option<string>, t: E)
    ensures HandleChannelError(channels, channel, t) == HandleChannelMessage(channels, channel, t)
  {
  }

  /** A concrete instance: an error for a channel nobody subscribed to
      passes the guard and escapes as a `NullPointerException`. */
  lemma UnregisteredErrorRaises()
    ensures HandleError(map[], Named(Some("spot.trades")), "timeout") == Raise(NullPointer)
  {
  }

  /** `handleChannelError` with registry membership as its guard, which is
      `RouteChecked`, delivers exactly where the code delivers and drops
      exactly where the code raises. */
  lemma CheckedErrorAgrees<E>(channels: map<string, Subscription>, channel: Option<string>, t: E)
    ensures var written := HandleChannelError(channels, channel, t);
      var checked := RouteChecked(channels, channel, t);
      && (written.Deliver? <==> checked.Deliver?)
      && (written.Deliver? ==> checked == written)
      && (written.Raise? <==> checked == Dropped)
  {
    ErrorGuardNeverFires(channels, channel, t);
  }
}

=== FILE: state.dfy ===
/** The state of one streaming service and the effects its operations have.
    Every operation of the model is a pure function from a `State` to a
    `Step`: the next state, the effects in the order the service starts
    them, and the exception (if any) that escapes the operation. */
module Streaming {
  import opened Wrappers
  import opened Text
  import opened Endpoints

  /** One element of a subscription's `Object[] args`. */
  datatype Arg = NullArg | StrArg(text: string) | LongArg(number: int)

  /** `toString()` of a non-null argument. */
  function ArgText(a: Arg): string
    requires !a.NullArg?
  {
    match a
    case StrArg(t) => t
    case LongArg(n) => Decimal(n)
  }

  /** A registry entry: what is needed to (re)issue the subscription. The
      subscriber's emitter is not kept; deliveries name the channel id. */
  datatype Subscription = Subscription(channelName: string, args: seq<Arg>)

  /** The web-socket channel as `sendMessage` sees it. A channel that was
      never created (null) is not open. */
  datatype Link = Link(open: bool, writable: bool)

  const Down := Link(false, false)

  /** The shared Redis key `RetryWithDelay_gateio`: its counter and its
      remaining time to live in seconds, -1 when no expiry is set. */
  datatype RetryBudget = RetryBudget(count: int, ttl: int)

  const NoExpiry := -1
  const FreshBudget := RetryBudget(0, NoExpiry)

  /** The service's state. `noncesDrawn` counts the `getNonce` calls made so
      far, so that the next call is number `noncesDrawn`. */
  datatype State = State(
    channels: map<string, Subscription>,
    link: Link,
    manualDisconnect: bool,
    budget: RetryBudget,
    noncesDrawn: nat)

  /** Why a subscriber's stream is signalled an error. */
  datatype StreamFault = NotConnected | SubscribeBuildFailed

  /** Why `connect`'s completable reports an error. */
  datatype ConnectFailure = BadEndpoint(error: ConnectError) | TransportFailure

  /** Exceptions that escape an operation. */
  datatype Fault = NullPointer | IndexOutOfBounds | SignatureFailure | UnsubscribeBuildFailed

  /** Externally visible effects, in the order the service starts them. */
  datatype Action =
    | Dial(endpoint: Endpoint)                          // bootstrap connect
    | TextFrame(text: string)                           // a text frame written to the socket
    | CloseFrame                                        // a close frame written to the socket
    | CloseLink                                         // the socket channel is closed
    | ShutdownEventLoop                                 // the event loop group is shut down
    | Completed                                         // the returned completable completes
    | Errored(reason: ConnectFailure)                   // the returned completable fails
    | StreamError(channelId: string, fault: StreamFault)  // a subscriber's stream fails
    | ForwardInactive                                   // the base handler's channelInactive runs
    | ScheduleReconnect                                 // connect-then-resubscribe is scheduled in 10 s
    | CloseContext                                      // the handler context is closed

  datatype Step = Step(state: State, actions: seq<Action>, thrown: Option<Fault>)

  /** Outcome of an exchange-specific message builder: the text (null when
      `None`), or an `IOException`. */
  datatype Build = Built(message: Option<string>) | BuildFailed

  /** The frame a build would yield over a usable link, if any. */
  predicate Yields(b: Build, text: string)
  {
    b == Built(Some(text))
  }

  /** The serialized values of the ORDER, SERVER_SIGN and SERVER_PING
      websocket types; the core only ever looks for them with `String.contains`. */
  datatype Markers = Markers(order: string, serverSign: string, serverPing: string)

  /** The exchange-specific collaborators the core calls but does not define:
      the channel-id derivation, the message builders, the nonce source (the
      k-th call of `getNonce`), and the signature (`None` when it throws). */
  datatype Exchange = Exchange(
    markers: Markers,
    subscriptionId: (string, seq<Arg>) -> string,
    subscribeMessage: (string, seq<Arg>) -> Build,
    unsubscribeMessage: string -> Build,
    nonce: nat -> int,
    signature: (string, int) -> Option<string>)

  /** The base class's `getSubscriptionUniqueId`: the channel name itself. */
  function DefaultSubscriptionId(channelName: string, args: seq<Arg>): string
  {
    channelName
  }

  ghost predicate UsesDefaultId(ex: Exchange)
  {
    forall name, args :: ex.subscriptionId(name, args) == DefaultSubscriptionId(name, args)
  }

  /** Every entry is stored under the id the exchange derives from it. */
  ghost predicate WellKeyed(ex: Exchange, channels: map<string, Subscription>)
  {
    forall id :: id in channels ==>
      ex.subscriptionId(channels[id].channelName, channels[id].args) == id
  }

  /** The texts of the frames among some effects, in order. */
  function FramesOf(actions: seq<Action>): seq<string>
  {
    if actions == [] then []
    else (if actions[0].TextFrame? then [actions[0].text] else []) + FramesOf(actions[1..])
  }

  /** Actions without a text frame put nothing on the wire. */
  lemma {:induction false} NoFrames(actions: seq<Action>)
    requires forall j :: 0 <= j < |actions| ==> !actions[j].TextFrame?
    ensures FramesOf(actions) == []
    decreases |actions|
  {
    if actions != [] {
      NoFrames(actions[1..]);
    }
  }

  lemma {:induction false} FramesOfAppend(a: seq<Action>, b: seq<Action>)
    ensures FramesOf(a + b) == FramesOf(a) + FramesOf(b)
    decreases |a|
  {
    if a == [] {
      assert a + b == b;
    } else {
      assert (a + b)[1..] == a[1..] + b;
      FramesOfAppend(a[1..], b);
    }
  }
}

=== FILE: text.dfy ===
/** The few `java.lang.String` operations the streaming core relies on. */
module Text {

  /** `String.contains`: `sub` occurs in `s` at some offset (the empty
      string occurs everywhere). */
  predicate Contains(s: string, sub: string)
  {
    exists k :: 0 <= k <= |s| - |sub| && OccursAt(s, sub, k)
  }

  /** `sub` occurs in `s` starting at index `k`. */
  predicate OccursAt(s: string, sub: string, k: int)
  {
    0 <= k <= |s| - |sub| && s[k..k + |sub|] == sub
  }

  /** Every string contains itself. */
  lemma ContainsSelf(s: string)
    ensures Contains(s, s)
  {
    assert OccursAt(s, s, 0);
  }

  /** Upper-casing of one character, restricted to ASCII letters. */
  function UpperAscii(c: char): char
  {
    if 'a' <= c <= 'z' then (c as int - 32) as char else c
  }

  /** `String.equalsIgnoreCase` over ASCII: same length and the same
      characters after upper-casing. */
  predicate EqualsIgnoreCase(a: string, b: string)
  {
    |a| == |b| && forall i :: 0 <= i < |a| ==> UpperAscii(a[i]) == UpperAscii(b[i])
  }

  /** The characters that fold to the upper-case ASCII letter `u` are `u`
      itself and its lower-case partner. */
  lemma UpperAsciiInverse(c: char, u: char)
    requires 'A' <= u <= 'Z'
    ensures UpperAscii(c) == u <==> c == u || c == (u as int + 32) as char
  {
  }

  /** Decimal digits of a natural number, most significant first. */
  function Digits(n: nat): (r: string)
    ensures |r| > 0
    ensures forall i :: 0 <= i < |r| ==> '0' <= r[i] <= '9'
    decreases n
  {
    var d := ['0' + (n % 10) as char];
    if n < 10 then d else Digits(n / 10) + d
  }

  /** `Long.toString`: an optional minus sign followed by the digits. */
  function Decimal(n: int): string
  {
    if n < 0 then "-" + Digits(-n) else Digits(n)
  }
}

=== FILE: wrappers.dfy ===
/** Failure-compatible wrappers used across the model: `Option` stands for a
    Java reference that may be null, `Result` for a call that may throw. */
module Wrappers {

  datatype Option<+T> = None | Some(value: T)

  datatype Result<+R, +E> = Success(value: R) | Failure(error: E)
}
